=== FILE: README.md ===
# RainBot chat client — a Dafny model of its session logic

This project models the client-side logic of the RainBot chat UI. RainBot is a
browser chat assistant for Islamic finance that talks to a remote backend.
The model covers three parts:

- **The chat-session hook** (`src/hooks/useChat.ts`). It owns the session
  record, the quick suggestions, the error slot and the initialization flag.
  It is modelled as a pure reducer. Each asynchronous operation is a *begin*
  step, run when the operation is invoked, and a *complete* step, run when
  the backend call settles with a `Result`.
- **The chat screen's decisions** (`src/components/ChatInterface.tsx`).
  These are the guards on submitting and on clicking a suggestion, the
  clearing of the input box, the disabled controls and the "initializing"
  placeholder. The screen is modelled as a second reducer (`UiStep`) wrapped
  around the hook. It takes a `Gate`: `AsWritten` hides the controls under
  the placeholder condition the screen writes, and `Corrected` under the
  corrected condition of "## Findings". Every run lemma holds for both.
- **The document upload panel** (`src/components/DocumentUpload.tsx`). This
  covers the validation chain for a picked file and the document record built
  from a successful upload. It also covers the icon chosen for a file type
  and the unit chosen to display a file size.

## Conventions

- Fresh message ids and timestamps (`uuidv4()`, `new Date()`) arrive as a
  `Fresh(id, at)` parameter.
- A settled backend call arrives as a `Result` of the response `Envelope`.
  A transport failure is `Err` carrying the reason the client would read,
  which is `err.response?.data?.message || err.message`.
- JavaScript truthiness is written out:
  - `OrElse` is `a || b` on strings;
  - `EffectiveUserId` is `userId || 1`, under which 0 counts as absent.
- `trim` is modelled over the ECMAScript whitespace and line-terminator code
  points. `Trim` is plain computation; the lemmas `TrimStartShape`,
  `TrimEndShape` and `TrimShape` state what it leaves.
- `includes` is modelled as a `Contains` predicate, plus a left-to-right
  search method that is proved to agree with it.

| file | module | contents |
|---|---|---|
| wrappers.dfy | Wrappers | `Option`, `Result`, `Envelope`, `OrElse`, `Settle` |
| text.dfy | Text | `Trim`, `IsBlank`, `Contains`, `Includes` |
| chat_types.dfy | ChatTypes | the records of `src/types/chat.ts`, requests, `Fresh` |
| chat_hook.dfy | ChatHook | the hook's state and operations, `Step`, `RunEvents` |
| session_properties.dfy | SessionProperties | conversations, reset and the first-question scenario |
| chat_interface.dfy | ChatInterface | submit/suggestion guards, `UiStep`, `UiRun` |
| interface_properties.dfy | InterfaceProperties | single flight, input clearing, the initializing placeholder |
| document_upload.dfy | DocumentUpload | validation, upload completion, icon, size unit |
| upload_properties.dfy | UploadProperties | size limit, check order, icons of the allowed types |

### Behaviours the code does not have

Several behaviours one might expect of a chat client are absent from the
code, and the model leaves them out with it:

- **Provider preference.** `sendMessage` does not forward the user's
  provider preference. The hook takes only `content`, so the second argument
  passed by the screen is dropped. The modelled `SendChat` request therefore
  carries only the text and the session handle (`ProviderNeverForwarded`).
- **Loading guard.** The hook does not reject a send while one is
  outstanding: it has no such check (`useChat.ts:67`). The single-flight
  guarantee comes only from the screen's guards, and the model proves it at
  that level (`RunKeepsSingleFlight`, `DoubleSubmitSendsOnce`).
- **Document operations.** The hook has no attach or detach operation for
  documents, and loads no documents during initialization. Initialization
  clears the error when invoked (`useChat.ts:30`), then sets only the
  session handle, the user id, the welcome message and the initialization
  flag (`useChat.ts:39-55`). The upload is handled entirely by the upload panel, which
  hands the new document to its parent.
- **Error slot after a successful reply.** A successful reply does not clear
  a prior error. The error is cleared when the send is invoked
  (`useChat.ts:84`), not when the reply arrives.
- **Sources.** The reply's `sources` are not copied into the assistant
  message.
- **Trimming.** The user message holds the trimmed text, but the request
  carries the text exactly as typed (`useChat.ts:71` versus `:87`).

## Model

| member | source | states |
|---|---|---|
| Wrappers.OrElse | src/components/DocumentUpload.tsx:78 | JavaScript's short-circuit "or" on strings: the first operand unless it is empty, then the second |
| Wrappers.Settle | src/components/DocumentUpload.tsx:57-82 | an envelope is a success exactly when the transport worked and `success` is true; then its data is the payload; `success: false` fails with the envelope's message or the fallback; a transport failure keeps its reason |
| Text.TrimStartShape | src/hooks/useChat.ts:71 | what removing leading whitespace leaves is a suffix of the input; everything removed is whitespace; the rest is empty or starts with non-whitespace |
| Text.TrimEndShape | src/hooks/useChat.ts:71 | what removing trailing whitespace leaves is a prefix of the input; everything removed is whitespace; the rest is empty or ends with non-whitespace |
| Text.TrimShape | src/hooks/useChat.ts:71 | `trim` leaves a contiguous slice of the input, with only whitespace cut on either side, and the slice has non-whitespace ends or is empty |
| Text.BlankIffAllWhitespace | src/hooks/useChat.ts:67 | `!s.trim()` holds exactly when every character of `s` is whitespace |
| Text.WhitespaceTrimsAway | src/hooks/useChat.ts:67 | a text made only of whitespace loses all of it when leading whitespace is removed |
| Text.TrimIdempotent | src/hooks/useChat.ts:71 | trimming an already trimmed text changes nothing |
| Text.Includes | src/components/DocumentUpload.tsx:95-97 | the left-to-right substring search returns true exactly when the substring occurs at some offset |
| ChatHook.EffectiveUserId | src/hooks/useChat.ts:39 | the user id falls back to 1: the id is never 0; a present non-zero id is kept; an absent id and a present 0 both become 1 |
| ChatHook.SettleSession | src/hooks/useChat.ts:33-35 | session creation succeeds exactly on a `success: true` envelope, with its data; `success: false` fails with "Failed to create session" (line 58); a transport failure keeps its reason |
| ChatHook.AnswerMessage | src/hooks/useChat.ts:90-101 | the answer message has the fresh id and instant, the assistant sender and the reply's text; it carries the reply's compliance flag, principles, issuances, model and cost, its `suggestedActions` as `platformActions`, and no sources |
| ChatHook.SettleChat | src/hooks/useChat.ts:87-131 | a chat reply succeeds exactly on a `success: true` envelope, with its data; a refusal fails with the envelope's error text, or "Failed to send message" when that is empty (line 113, read back as `err.message` at lines 120 and 131); a transport failure keeps its reason |
| ChatHook.BeginInit | src/hooks/useChat.ts:28-30 | invoking initialization clears the error slot and leaves everything else as it was |
| ChatHook.CompleteInit | src/hooks/useChat.ts:35-63 | on success: the new handle and effective user id, messages exactly one assistant welcome with the reply's text and the fresh id, initialized; on failure: error "Failed to initialize chat: " + reason, session and flag unchanged; loading, documents and suggestions are never touched |
| ChatHook.BeginSend | src/hooks/useChat.ts:66-87 | ignored exactly when the text is blank or there is no session handle; otherwise one user message with the trimmed, non-empty text and the fresh id is appended, loading starts, the error clears, nothing else changes, and the request carries the untrimmed text and the handle |
| ChatHook.CompleteSend | src/hooks/useChat.ts:89-131 | exactly one assistant message is appended after the unchanged history and loading ends; on success it carries the answer text and model, suggestions become the reply's list (empty if absent) and the error is kept; on failure it is the apology naming the reason, the error is "Failed to send message: " + reason and suggestions are kept |
| ChatHook.Clear | src/hooks/useChat.ts:135-142 | messages, suggestions and error are emptied; handle, user id, loading, documents and the initialization flag are kept |
| ChatHook.BeginReset | src/hooks/useChat.ts:144-148 | invoking reset empties messages, suggestions and error and drops the initialization flag, keeping the handle and loading |
| ChatHook.Step | src/hooks/useChat.ts:28-148 | a request goes out exactly for initialization, reset, or a send the hook issues; the first two request a new session |
| SessionProperties.TranscriptLength | src/hooks/useChat.ts:77-79 | the reference transcript keeps its start and grows by two messages per exchange |
| SessionProperties.TranscriptSenders | src/hooks/useChat.ts:72 | after the start, the transcript alternates user, assistant, user, … |
| SessionProperties.TranscriptExchange | src/hooks/useChat.ts:69-127 | the k-th exchange sits at offset 2k after the start: the trimmed question, then its reply |
| SessionProperties.RunAsk | src/hooks/useChat.ts:67-87 | with a handle and a non-blank question, one more send event is the hook's begin step and adds exactly one chat request |
| SessionProperties.RunSettle | src/hooks/useChat.ts:103-129 | one more settle event is the hook's complete step and adds no request |
| SessionProperties.RunExchange | src/hooks/useChat.ts:66-133 | one exchange appends the trimmed question and its reply, keeps handle, user id and flag, ends loading and adds exactly its chat request |
| SessionProperties.ConversationRun | src/hooks/useChat.ts:66-133 | a conversation of N exchanges leaves exactly the reference transcript, keeps handle, user id and flag, ends loading, and sends exactly one request per question, in order, with the text as typed |
| SessionProperties.ConversationFromWelcome | src/hooks/useChat.ts:52 | after the welcome, N exchanges (succeeded or failed) leave 1 + 2N messages: the welcome first, then alternating user and assistant, with the k-th question's trimmed text at 2k + 1 |
| SessionProperties.SuccessfulConversation | src/hooks/useChat.ts:90-105 | when every reply succeeds, the message at 2k + 2 carries the k-th answer's text |
| SessionProperties.FailedSendKeepsQuestion | src/hooks/useChat.ts:115-131 | a failed send keeps the history and the user's trimmed message, adds exactly one assistant apology, ends loading, sets an error with the send prefix and keeps the suggestions |
| SessionProperties.ResetThenInit | src/hooks/useChat.ts:144-148 | reset and a successful initialization leave exactly the new welcome, the new handle, initialized, no error and no suggestions |
| SessionProperties.ResetThenFailedInit | src/hooks/useChat.ts:144-148 | reset and a failed initialization leave no messages, the old handle, uninitialized and the initialization error |
| SessionProperties.SessionEnvelopeSettlesInit | src/hooks/useChat.ts:33-62 | a settled session envelope reaches the hook: `success: true` completes initialization with its data; `success: false` leaves only the error "Failed to initialize chat: Failed to create session"; no request either way |
| SessionProperties.ChatEnvelopeSettlesSend | src/hooks/useChat.ts:87-131 | a settled chat envelope reaches the hook: `success: true` appends the answer built from its data; `success: false` appends the apology and sets the prefixed error, both naming its error text or "Failed to send message"; loading ends and no request goes out |
| SessionProperties.InitialIgnoresSends | src/hooks/useChat.ts:8-17 | the initial state has user id 1, is idle and uninitialized, and ignores every send, since it has no handle (line 67) |
| SessionProperties.GreetingRun | src/hooks/useChat.ts:28-55 | initializing from the initial state against an accepting backend leaves exactly the greeting, the issued handle, no suggestions and one session request |
| SessionProperties.FirstQuestionScenario | src/hooks/useChat.ts:28-133 | initialize, ask a non-blank question, receive an answer: exactly the welcome, the trimmed question and the answer in that order, the answer's suggestions (empty if absent), loading off, and requests exactly a session creation then the question as typed with the issued handle |
| ChatInterface.Submit | src/components/ChatInterface.tsx:44-50 | a submit is rejected exactly when the trimmed input is empty, a send is loading, or offline; otherwise the untrimmed input goes to the hook, which issues a request exactly when there is a handle |
| ChatInterface.ClickSuggestion | src/components/ChatInterface.tsx:52-55 | a click is rejected exactly while loading or offline; otherwise the suggestion goes to the hook, which ignores a blank one |
| ChatInterface.UiStep | src/components/ChatInterface.tsx:44-178 | under either gate: while the placeholder is shown every on-screen control is inert, and a click on a suggestion not in the current list (lines 149-156) is inert; rejected submits and clicks change nothing; a chat request only comes from a submit or a click and leaves a reply awaited; a session request comes exactly from an enabled reset outside the placeholder and adds one initialization in flight, and a session reply settles one or, with none in flight, changes nothing; provider, clear and reset are inert while loading; the input changes only by typing, by an ignored submit, or by the reply to a submitted message |
| InterfaceProperties.UiStepAppliesHook | src/components/ChatInterface.tsx:27-178 | under either gate, an accepted event drives the hook exactly as `ChatHook.Step` does: a submit sends the typed text and a listed suggestion its own (lines 48, 54), an awaited reply settles the send, clear, reset and a session reply apply the hook's step with the same request; typing, connectivity and the provider selector set only their own field; a reply with none awaited changes nothing |
| InterfaceProperties.SendButtonMatchesSubmitGuard | src/components/ChatInterface.tsx:178 | the send button is disabled exactly when a submit would be rejected (line 46) |
| InterfaceProperties.ProviderNeverForwarded | src/components/ChatInterface.tsx:48 | the chosen provider has no effect on what a submit or a click does |
| InterfaceProperties.NoSecondSendWhileLoading | src/components/ChatInterface.tsx:46 | while loading, both a submit and a suggestion click are rejected (line 53) |
| InterfaceProperties.StepKeepsSingleFlight | src/components/ChatInterface.tsx:44-55 | under either gate, one screen event keeps "loading exactly while a reply is awaited"; a chat request leaves an idle screen awaiting; a reply settles the send it awaits; sends issued plus the one outstanding before equal replies settling a send plus the one outstanding after |
| InterfaceProperties.RunKeepsSingleFlight | src/components/ChatInterface.tsx:44-55 | under either gate, across any run of screen events the loading invariant holds, and chat requests plus the send outstanding at the start equal the replies that settled a send plus the one still outstanding |
| InterfaceProperties.AtMostOneSendWithoutReply | src/components/ChatInterface.tsx:46 | under either gate, while no reply has settled a send, any run of screen events sends at most one chat request |
| InterfaceProperties.DoubleSubmitSendsOnce | src/components/ChatInterface.tsx:46-48 | under either gate, with the input on screen, pressing send twice before the reply puts exactly one chat request on the wire |
| InterfaceProperties.RejectedSubmitKeepsInput | src/components/ChatInterface.tsx:46 | a rejected submit leaves the screen, the input included, unchanged and sends nothing |
| InterfaceProperties.SubmitClearsInputAfterReply | src/components/ChatInterface.tsx:48-49 | an issued submit keeps the input until the reply arrives, and the reply clears it |
| InterfaceProperties.InitializingWindow | src/components/ChatInterface.tsx:57 | the hook's placeholder condition holds on a fresh state and immediately after a reset, and does not hold immediately after a session reply, successful or failed, is applied |
| InterfaceProperties.FailedInitThenClear | src/components/ChatInterface.tsx:57 | under either gate, after the mount's initialization fails and the clear button is pressed (`useChat.ts:141`), the placeholder condition the screen writes holds again with no initialization in flight and nothing sent |
| InterfaceProperties.FailedResetThenSend | src/components/ChatInterface.tsx:57 | under either gate, a reset whose initialization fails, then a message sent and successfully answered, leaves the placeholder condition holding with no send in flight, no more initializations than before, and exactly a session request and the chat request on the wire; the send clears the error when invoked (`useChat.ts:84`) |
| InterfaceProperties.AsWrittenPlaceholderStuck | src/components/ChatInterface.tsx:57-66 | under the gate as written, once the placeholder condition holds with no initialization or send in flight, no event sends a request or lifts it |
| InterfaceProperties.PlaceholderLifts | src/components/ChatInterface.tsx:57 | under the corrected gate with no send in flight, the session reply lifts a shown placeholder whatever it is, and otherwise reset requests a new session |
| InterfaceProperties.GatesDifferOnlyWhenStranded | src/components/ChatInterface.tsx:57 | the two gates disagree exactly when the placeholder condition holds with no initialization in flight, and elsewhere every event has the same effect under both |
| DocumentUpload.Validate | src/components/DocumentUpload.tsx:29-50 | nothing happens without a file or a handle; a disallowed type gets the type message; an allowed type over 10 MiB gets the size message; otherwise the file proceeds |
| DocumentUpload.BeginUpload | src/components/DocumentUpload.tsx:28-57 | a request goes out exactly for a file that passes the checks, carrying it and the handle, and the panel becomes busy with no error; a skip changes nothing; a rejection only shows its reason |
| DocumentUpload.NewDocument | src/components/DocumentUpload.tsx:60-69 | the new document takes its id, file name, type, storage location and chunk count from the backend's reply, its size from the local file, the given creation instant, and completed status |
| DocumentUpload.CompleteUpload | src/components/DocumentUpload.tsx:57-85 | the panel is never busy afterwards; a document is handed over exactly on a `success: true` reply, with the backend's id and chunk count, the local size and completed status; otherwise the error shows the reply's message or "Upload failed", or the transport reason or "Failed to upload document", and is never empty |
| DocumentUpload.PickFile | src/components/DocumentUpload.tsx:28-86 | a whole pick sends at most one request, exactly for an accepted file; a document only results from a confirmed upload; an idle panel ends idle |
| DocumentUpload.IconFor | src/components/DocumentUpload.tsx:94-99 | the PDF icon exactly when the type contains "pdf"; the Word icon exactly when it contains "word" but not "pdf"; the sheet icon exactly for "sheet" or "excel" without either; otherwise the generic icon |
| DocumentUpload.ClassifyFileType | src/components/DocumentUpload.tsx:94-99 | the search-by-search classification agrees with `IconFor` on every type |
| DocumentUpload.UnitFor | src/components/DocumentUpload.tsx:88-92 | bytes exactly below 1024, kilobytes exactly from 1024 below 1048576, megabytes exactly from 1048576 |
| UploadProperties.SizeLimitInclusive | src/components/DocumentUpload.tsx:47 | an allowed file of exactly 10 MiB proceeds; one byte more gets the size message |
| UploadProperties.TypeCheckFirst | src/components/DocumentUpload.tsx:41-50 | a file both disallowed and too large is reported for its type |
| UploadProperties.PickLeavesIdle | src/components/DocumentUpload.tsx:52-85 | from an idle panel any pick ends idle, and hands over a document exactly when the file passes the checks and the backend confirms |
| UploadProperties.ShortTypeIcons | src/components/DocumentUpload.tsx:33-39 | the PDF type gets the PDF icon, plain text the generic icon, the legacy Excel type the sheet icon |
| UploadProperties.UnitOrder | src/components/DocumentUpload.tsx:88-92 | a larger size is never shown in a smaller unit |

## Findings

| source | as written | input that shows it | evidently intended | confidence | as-written member | corrected member |
|---|---|---|---|---|---|---|
| src/components/ChatInterface.tsx:57 | the "initializing" placeholder, which replaces every control, is shown whenever the session is not initialized and there is no error | the mount's initialization fails, then the clear button (`useChat.ts:141`) wipes the error; or a reset's initialization fails, then a message is sent, which clears the error (`useChat.ts:84`), and answered. Either way the placeholder returns with no initialization in flight and no control left to start one | the placeholder is shown only while an initialization is in flight | medium; not executed | ChatInterface.UiStep under `AsWritten`; InterfaceProperties.FailedInitThenClear, InterfaceProperties.FailedResetThenSend, InterfaceProperties.AsWrittenPlaceholderStuck | ChatInterface.PlaceholderShown, ChatInterface.UiStep under `Corrected`; InterfaceProperties.PlaceholderLifts, InterfaceProperties.GatesDifferOnlyWhenStranded |

## Left out

- `src/utils/api.ts`: the HTTP client, base URL, timeouts and interceptors are not part of this model. A backend call is a `Result` parameter.
- `src/app/page.tsx` and the presentational components (`MessageBubble`, `QuickSuggestions`, `TypingIndicator`): they only render.
- `formatFileSize` text: only the unit is modelled. The number is floating-point division printed with `toFixed(1)`.
- `uuidv4()`, `new Date()` and `toISOString()` are parameters (`Fresh`, `createdAt`).
- Scrolling to the newest message, console logging, and the `online`/`offline` window listeners are left out. Connectivity is the `ConnectivityChanged` event.
- Interleaving of asynchronous steps is left out. Each complete step is applied to the latest state; the screen counts initializations in flight but does not match replies to requests, and an effect that runs twice is not explored.
- Mounting the screen is not an event: `Start` is the screen right after the mount effect (`ChatInterface.tsx:27-29`) has requested a session. That effect's dependency never changes (`useChat.ts:64`), so it runs once.
- The stale `session.sessionId` captured by `sendMessage`'s closure is left out: the model reads the current handle.
- The chat envelope's refusal text stands for `response.error` (`useChat.ts:113`), which the declared response type does not have.
- The upload panel's `disabled` prop, the delete button (`onDeleteDocument`) and resetting the file input after an upload are left out. They are plumbing the parent owns.
- The file input is disabled while `isUploading` (`DocumentUpload.tsx:133`), so a pick never starts on a busy panel. `PickFile` does not exclude a busy panel; its contract only states what a pick from an idle one leaves.
- The document list kept by the page, into which `onUploadSuccess` adds documents, is left out. It lives in `page.tsx`.
- UploadProperties.ShortTypeIcons: does not state the icons of the two long Office types (DOCX and XLSX). Deciding substring absence on those 70-character literals is beyond the solver's reach here. The general classification is still stated by `IconFor` for every input.
- ChatHook.Step: states only which events issue requests. What each event does to the state is stated by the begin and complete functions it dispatches to.

=== FILE: chat_hook.dfy ===
/** The chat-session state manager (src/hooks/useChat.ts) as a reducer over an
    immutable record.

    Each asynchronous operation of the hook is split into the synchronous
    part that runs when it is invoked ("begin") and the part that runs when
    the backend call settles ("complete"), and each part is applied to the
    latest state. Fresh message ids and timestamps arrive as `Fresh`
    parameters; a settled backend call arrives as a `Result`. */
module ChatHook {
  import opened Wrappers
  import opened Text
  import opened ChatTypes

  /** Everything the hook keeps: the session record and the three pieces of
      state kept beside it. */
  datatype ChatState = ChatState(
    session: ChatSession,
    quickSuggestions: seq<string>,
    error: Option<string>,
    isInitialized: bool)

  const InitErrorPrefix: string := "Failed to initialize chat: "
  const SendErrorPrefix: string := "Failed to send message: "
  const ApologyPrefix: string := "Sorry, I encountered an error: "
  const ApologySuffix: string := ". Please try again."
  /** The reason given when the session endpoint answers `success: false`. */
  const SessionRefused: string := "Failed to create session"
  /** The reason given when the chat endpoint answers `success: false` with no
      error text of its own. */
  const SendRefused: string := "Failed to send message"

  /** The state the hook starts in. */
  const Initial: ChatState :=
    ChatState(ChatSession([], 1, [], false, None), [], None, false)

  /** A message without any assistant annotations. */
  function PlainMessage(f: Fresh, content: string, sender: Sender): ChatMessage {
    ChatMessage(f.id, content, sender, f.at, None, None, None, None, None, None, None)
  }

  /** The assistant message built from a chat reply: the reply's annotations
      are carried over, its `suggestedActions` as the message's
      `platformActions`, and its `sources` are not. */
  function AnswerMessage(reply: ChatReply, f: Fresh): (m: ChatMessage)
    ensures m.id == f.id && m.timestamp == f.at && m.sender == Assistant
    ensures m.content == reply.response
    ensures m.isShariahCompliant == Some(reply.isShariahCompliant)
    ensures m.principlesInvolved == Some(reply.principlesInvolved)
    ensures m.recommendedIssuances == Some(reply.recommendedIssuances)
    ensures m.platformActions == Some(reply.suggestedActions)
    ensures m.modelUsed == Some(reply.modelUsed) && m.cost == Some(reply.cost)
    ensures m.sources == None
  {
    ChatMessage(f.id, reply.response, Assistant, f.at,
                Some(reply.isShariahCompliant), Some(reply.principlesInvolved),
                Some(reply.recommendedIssuances), Some(reply.suggestedActions),
                Some(reply.modelUsed), Some(reply.cost), None)
  }

  /** The assistant message a settled send appends: the answer, or an apology
      naming the failure reason. */
  function ReplyMessage(reply: Result<ChatReply>, f: Fresh): ChatMessage {
    match reply
    case Ok(p) => AnswerMessage(p, f)
    case Err(m) => PlainMessage(f, ApologyPrefix + m + ApologySuffix, Assistant)
  }

  /** The user id a session reply yields: JavaScript `userId || 1`, so an
      absent id and the falsy id 0 both become 1. */
  function EffectiveUserId(reply: SessionReply): (u: int)
    ensures u != 0
    ensures reply.userId.Some? && reply.userId.value != 0 ==> u == reply.userId.value
    ensures reply.userId.None? ==> u == 1
    ensures reply.userId == Some(0) ==> u == 1
  {
    match reply.userId
    case Some(v) => if v != 0 then v else 1
    case None => 1
  }

  /** Folds the session endpoint's envelope into a Result: a reply with
      `success: false` is a failure with a fixed reason. */
  function SettleSession(transport: Result<Envelope<SessionReply>>): (r: Result<SessionReply>)
    ensures r.Ok? <==> transport.Ok? && transport.payload.success
    ensures r.Ok? ==> r.payload == transport.payload.data
    ensures transport.Ok? && !transport.payload.success ==> r == Err(SessionRefused)
    ensures transport.Err? ==> r == Err(transport.msg)
  {
    match transport
    case Err(m) => Err(m)
    case Ok(env) => if env.success then Ok(env.data) else Err(SessionRefused)
  }

  /** Folds the chat endpoint's envelope into a Result: a reply with
      `success: false` is a failure carrying its error text, or a fixed
      reason when that text is empty. */
  function SettleChat(transport: Result<Envelope<ChatReply>>): (r: Result<ChatReply>)
    ensures r.Ok? <==> transport.Ok? && transport.payload.success
    ensures r.Ok? ==> r.payload == transport.payload.data
    ensures transport.Ok? && !transport.payload.success ==>
              r == Err(OrElse(transport.payload.message, SendRefused))
    ensures transport.Err? ==> r == Err(transport.msg)
    ensures r.Err? ==> r.msg != [] || transport.Err?
  {
    Settle(transport, SendRefused)
  }

  // ---------------------------------------------------------------------
  // initializeChat

  /** Invoking initialization clears the error slot and nothing else. */
  function BeginInit(s: ChatState): (r: ChatState)
    ensures r.error == None
    ensures r.session == s.session && r.quickSuggestions == s.quickSuggestions
    ensures r.isInitialized == s.isInitialized
  {
    s.(error := None)
  }

  /** Settling initialization. On success the session takes the backend's
      handle and user id and the conversation becomes exactly the welcome
      message; on failure only the error slot changes. */
  function CompleteInit(s: ChatState, reply: Result<SessionReply>, f: Fresh): (r: ChatState)
    ensures reply.Ok? ==>
      && r.session.sessionId == reply.payload.sessionId
      && r.session.userId == EffectiveUserId(reply.payload)
      && |r.session.messages| == 1
      && r.session.messages[0].sender == Assistant
      && r.session.messages[0].content == reply.payload.welcomeMessage
      && r.session.messages[0].id == f.id
      && r.isInitialized
      && r.error == s.error
    ensures reply.Err? ==>
      && r.error.Some?
      && r.error.value == InitErrorPrefix + reply.msg
      && r.session == s.session
      && r.isInitialized == s.isInitialized
    ensures r.session.isLoading == s.session.isLoading
    ensures r.session.uploadedDocuments == s.session.uploadedDocuments
    ensures r.quickSuggestions == s.quickSuggestions
  {
    match reply
    case Ok(p) =>
      var withId := s.session.(sessionId := p.sessionId, userId := EffectiveUserId(p));
      var welcome := PlainMessage(f, p.welcomeMessage, Assistant);
      s.(session := withId.(messages := [welcome]), isInitialized := true)
    case Err(m) =>
      s.(error := Some(InitErrorPrefix + m))
  }

  // ---------------------------------------------------------------------
  // sendMessage

  /** The synchronous part of a send: either nothing happens, or the user
      message is appended and one chat request is put on the wire. */
  datatype SendStep = Ignored | Issued(state: ChatState, request: Request)

  /** Invoking `sendMessage(content)`. Ignored exactly when the trimmed
      content is empty or there is no session handle yet; the loading flag is
      not consulted. Otherwise the trimmed text is appended as a user message,
      loading is set, the error slot is cleared, and the request carries the
      content as given together with the session handle. */
  function BeginSend(s: ChatState, content: string, f: Fresh): (r: SendStep)
    ensures r.Ignored? <==> IsBlank(content) || s.session.sessionId == []
    ensures r.Issued? ==>
      && var m := r.state.session.messages;
      && |m| == |s.session.messages| + 1
      && m[..|s.session.messages|] == s.session.messages
      && m[|m| - 1].sender == User
      && m[|m| - 1].content == Trim(content)
      && m[|m| - 1].content != []
      && m[|m| - 1].id == f.id
      && r.state.session.isLoading
      && r.state.error == None
      && r.state.session.sessionId == s.session.sessionId
      && r.state.session.userId == s.session.userId
      && r.state.session.uploadedDocuments == s.session.uploadedDocuments
      && r.state.quickSuggestions == s.quickSuggestions
      && r.state.isInitialized == s.isInitialized
      && r.request == SendChat(content, s.session.sessionId)
  {
    if IsBlank(content) || s.session.sessionId == [] then
      Ignored
    else
      var userMessage := PlainMessage(f, Trim(content), User);
      var session := s.session.(messages := s.session.messages + [userMessage], isLoading := true);
      Issued(s.(session := session, error := None), SendChat(content, s.session.sessionId))
  }

  /** Settling a send. Exactly one assistant message is appended after the
      existing conversation, which is kept as is, and loading ends. On success
      the message is the answer and the suggestions are replaced by the
      reply's list (empty when absent); on failure the message is an apology
      naming the reason, the error slot is overwritten, and the suggestions
      stay. */
  function CompleteSend(s: ChatState, reply: Result<ChatReply>, f: Fresh): (r: ChatState)
    ensures |r.session.messages| == |s.session.messages| + 1
    ensures r.session.messages[..|s.session.messages|] == s.session.messages
    ensures r.session.messages[|s.session.messages|].sender == Assistant
    ensures r.session.messages[|s.session.messages|].id == f.id
    ensures !r.session.isLoading
    ensures reply.Ok? ==>
      && r.session.messages[|s.session.messages|].content == reply.payload.response
      && r.session.messages[|s.session.messages|].modelUsed == Some(reply.payload.modelUsed)
      && r.quickSuggestions == reply.payload.quickSuggestions.GetOr([])
      && r.error == s.error
    ensures reply.Err? ==>
      && r.session.messages[|s.session.messages|].content
           == ApologyPrefix + reply.msg + ApologySuffix
      && r.error == Some(SendErrorPrefix + reply.msg)
      && r.quickSuggestions == s.quickSuggestions
    ensures r.session.sessionId == s.session.sessionId
    ensures r.session.userId == s.session.userId
    ensures r.session.uploadedDocuments == s.session.uploadedDocuments
    ensures r.isInitialized == s.isInitialized
  {
    var session := s.session.(messages := s.session.messages + [ReplyMessage(reply, f)], isLoading := false);
    match reply
    case Ok(p) => s.(session := session, quickSuggestions := p.quickSuggestions.GetOr([]))
    case Err(m) => s.(session := session, error := Some(SendErrorPrefix + m))
  }

  // ---------------------------------------------------------------------
  // clearChat and resetChat

  /** Empties the conversation and the suggestions and clears the error; the
      session handle, user id, loading flag and initialization flag stay. */
  function Clear(s: ChatState): (r: ChatState)
    ensures r.session.messages == [] && r.quickSuggestions == [] && r.error == None
    ensures r.session.sessionId == s.session.sessionId
    ensures r.session.userId == s.session.userId
    ensures r.session.isLoading == s.session.isLoading
    ensures r.session.uploadedDocuments == s.session.uploadedDocuments
    ensures r.isInitialized == s.isInitialized
  {
    s.(session := s.session.(messages := []), quickSuggestions := [], error := None)
  }

  /** Invoking reset: a clear, the initialization flag dropped, then the
      synchronous part of initialization. Its completion is `CompleteInit`. */
  function BeginReset(s: ChatState): (r: ChatState)
    ensures r.session.messages == [] && r.quickSuggestions == [] && r.error == None
    ensures !r.isInitialized
    ensures r.session.sessionId == s.session.sessionId
    ensures r.session.isLoading == s.session.isLoading
  {
    BeginInit(Clear(s).(isInitialized := false))
  }

  // ---------------------------------------------------------------------
  // The hook as one reducer

  /** Everything that can happen to the hook's state. */
  datatype Event =
    | InitStarted
    | InitSettled(sessionReply: Result<SessionReply>, welcome: Fresh)
    | SendStarted(content: string, asked: Fresh)
    | SendSettled(chatReply: Result<ChatReply>, answered: Fresh)
    | Cleared
    | ResetStarted

  /** One event applied: the new state and the request it puts on the wire,
      if any. */
  datatype Transition = Transition(state: ChatState, request: Option<Request>)

  function Step(s: ChatState, e: Event): (t: Transition)
    ensures t.request.Some? <==> e.InitStarted? || e.ResetStarted? || (e.SendStarted? && BeginSend(s, e.content, e.asked).Issued?)
    ensures t.request.Some? && !e.SendStarted? ==> t.request == Some(CreateSession)
  {
    match e
    case InitStarted => Transition(BeginInit(s), Some(CreateSession))
    case InitSettled(reply, f) => Transition(CompleteInit(s, reply, f), None)
    case SendStarted(content, f) =>
      (match BeginSend(s, content, f)
       case Ignored => Transition(s, None)
       case Issued(s', req) => Transition(s', Some(req)))
    case SendSettled(reply, f) => Transition(CompleteSend(s, reply, f), None)
    case Cleared => Transition(Clear(s), None)
    case ResetStarted => Transition(BeginReset(s), Some(CreateSession))
  }

  /** A run of events: the final state and the requests issued, in order. */
  datatype Run = Run(state: ChatState, requests: seq<Request>)

  function RequestsOf(t: Transition): seq<Request> {
    match t.request
    case Some(q) => [q]
    case None => []
  }

  /** Applies `events` to `s` in order. */
  function RunEvents(s: ChatState, events: seq<Event>): Run
    decreases |events|
  {
    if events == [] then Run(s, [])
    else
      var before := RunEvents(s, events[..|events| - 1]);
      var t := Step(before.state, events[|events| - 1]);
      Run(t.state, before.requests + RequestsOf(t))
  }
}

=== FILE: chat_interface.dfy ===
/** The chat screen's decisions (src/components/ChatInterface.tsx): whether
    a submit or a suggestion click issues a send, what happens to the input
    box, and when the "initializing" screen is shown. The screen is modelled
    as a reducer over its own state and the hook's state, parameterised by
    the placeholder condition: the one the screen writes, or the corrected
    one. Connectivity is an input flag. */
module ChatInterface {
  import opened Wrappers
  import opened Text
  import opened ChatTypes
  import opened ChatHook

  /** The model a user may prefer. The screen offers the choice, but the hook
      takes only the message text, so the choice never reaches a request. */
  datatype Provider = Gemini | OpenAI

  /** The screen's own state: the input box, the connectivity flag and the
      provider selector. */
  datatype View = View(input: string, isOnline: bool, preferredProvider: Provider)

  /** The condition under which `handleSubmit` returns without sending. */
  predicate SubmitRejected(input: string, isLoading: bool, isOnline: bool) {
    IsBlank(input) || isLoading || !isOnline
  }

  /** The condition under which the send button is disabled. */
  predicate SendButtonDisabled(input: string, isLoading: bool, isOnline: bool) {
    Trim(input) == [] || isLoading || !isOnline
  }

  /** The condition under which a suggestion click returns without sending;
      the suggestion's text is not inspected. */
  predicate SuggestionRejected(isLoading: bool, isOnline: bool) {
    isLoading || !isOnline
  }

  /** The condition under which the input box is disabled. */
  predicate InputDisabled(isLoading: bool, isOnline: bool) {
    isLoading || !isOnline
  }

  /** The condition under which the provider selector and the reset and
      clear buttons are disabled. */
  predicate ControlsDisabled(isLoading: bool) {
    isLoading
  }

  /** The condition, as the screen writes it, under which the "initializing"
      placeholder replaces the whole screen: the session is not initialized
      and no error is on display. It does not ask whether an initialization
      is actually in flight. */
  predicate ShowsInitializing(s: ChatState) {
    !s.isInitialized && s.error.None?
  }

  /** What a submit or a click does to the hook: nothing, or a call of
      `sendMessage` whose synchronous part is `sent`. */
  datatype Submission = Rejected | Admitted(sent: SendStep)

  /** `handleSubmit`: rejected when the trimmed input is empty, a send is in
      flight, or the browser is offline; otherwise the input, untrimmed, is
      handed to the hook, which then issues a request exactly when a session
      handle exists. */
  function Submit(v: View, s: ChatState, f: Fresh): (r: Submission)
    ensures r.Rejected? <==> SubmitRejected(v.input, s.session.isLoading, v.isOnline)
    ensures r.Admitted? ==> r.sent == BeginSend(s, v.input, f)
    ensures r.Admitted? ==> (r.sent.Issued? <==> s.session.sessionId != [])
  {
    if SubmitRejected(v.input, s.session.isLoading, v.isOnline) then Rejected
    else Admitted(BeginSend(s, v.input, f))
  }

  /** `handleSuggestionClick`: rejected only while a send is in flight or
      offline; otherwise the suggestion text is handed to the hook, which
      itself ignores a blank one. */
  function ClickSuggestion(v: View, s: ChatState, suggestion: string, f: Fresh): (r: Submission)
    ensures r.Rejected? <==> SuggestionRejected(s.session.isLoading, v.isOnline)
    ensures r.Admitted? ==> r.sent == BeginSend(s, suggestion, f)
    ensures r.Admitted? && IsBlank(suggestion) ==> r.sent.Ignored?
  {
    if SuggestionRejected(s.session.isLoading, v.isOnline) then Rejected
    else Admitted(BeginSend(s, suggestion, f))
  }

  // ---------------------------------------------------------------------
  // The screen as one reducer

  /** Which send, if any, is awaiting its reply, and whether it came from the
      input box (whose clearing waits for the reply) or from a suggestion. */
  datatype Pending = Idle | AwaitingReply(fromInput: bool)

  /** The screen: its own state, the hook's state, the send awaiting its
      reply, and the number of session requests still awaiting theirs. */
  datatype Screen = Screen(view: View, chat: ChatState, pending: Pending, initsPending: nat)

  /** The placeholder as evidently intended: shown while the session is not
      initialized, no error is on display, and an initialization is in
      flight. While it is shown the input box, the send button, the
      suggestions, the provider selector and the reset and clear buttons are
      not on screen. */
  predicate PlaceholderShown(sc: Screen) {
    ShowsInitializing(sc.chat) && sc.initsPending > 0
  }

  /** Everything that can happen on the chat screen. The initialization run
      by the mount effect has happened before `Start`; later ones come only
      from reset. */
  datatype UiEvent =
    | Typed(text: string)
    | ConnectivityChanged(online: bool)
    | ProviderChosen(provider: Provider)
    | SubmitPressed(asked: Fresh)
    | SuggestionClicked(suggestion: string, asked: Fresh)
    | ReplyArrived(reply: Result<ChatReply>, answered: Fresh)
    | InitArrived(sessionReply: Result<SessionReply>, welcome: Fresh)
    | ClearPressed
    | ResetPressed

  /** The events that act through a control of the conversation screen. */
  predicate OnScreenControl(ev: UiEvent) {
    ev.Typed? || ev.ProviderChosen? || ev.SubmitPressed? || ev.SuggestionClicked?
    || ev.ClearPressed? || ev.ResetPressed?
  }

  /** Which placeholder condition hides the controls: the one the screen
      writes (`ShowsInitializing`), or the corrected one
      (`PlaceholderShown`). */
  datatype Gate = AsWritten | Corrected

  /** Whether the placeholder replaces the conversation screen under `g`. */
  predicate Hidden(g: Gate, sc: Screen) {
    match g
    case AsWritten => ShowsInitializing(sc.chat)
    case Corrected => PlaceholderShown(sc)
  }

  datatype UiTransition = UiTransition(next: Screen, request: Option<Request>)

  /** One screen event applied, with the placeholder decided by `g`. A
      submit's input is cleared once its send has settled, or at once when
      the hook ignored it; a reply settles the send awaiting it, and a reply
      with none awaiting changes nothing; a session reply settles one
      initialization in flight. While a send is in flight the provider
      selector and the reset and clear buttons are disabled; while the
      placeholder is shown no control is on screen; and a suggestion button
      exists only for a suggestion in the current list. Events through a
      control that is absent or disabled change nothing. */
  function UiStep(g: Gate, sc: Screen, ev: UiEvent): (t: UiTransition)
    ensures Hidden(g, sc) && OnScreenControl(ev) ==> t == UiTransition(sc, None)
    ensures ev.SuggestionClicked? && ev.suggestion !in sc.chat.quickSuggestions ==> t == UiTransition(sc, None)
    ensures ev.SubmitPressed? && SubmitRejected(sc.view.input, sc.chat.session.isLoading, sc.view.isOnline) ==>
              t == UiTransition(sc, None)
    ensures ev.SuggestionClicked? && SuggestionRejected(sc.chat.session.isLoading, sc.view.isOnline) ==>
              t == UiTransition(sc, None)
    ensures t.request.Some? && t.request.value.SendChat? ==>
              (ev.SubmitPressed? || ev.SuggestionClicked?) && t.next.pending.AwaitingReply?
    ensures t.request == Some(CreateSession) <==>
              ev.ResetPressed? && !Hidden(g, sc) && !ControlsDisabled(sc.chat.session.isLoading)
    ensures t.request.Some? && t.request.value.CreateSession? ==> t.next.initsPending == sc.initsPending + 1
    ensures ev.InitArrived? && sc.initsPending > 0 ==> t.next.initsPending == sc.initsPending - 1
    ensures ev.InitArrived? && sc.initsPending == 0 ==> t == UiTransition(sc, None)
    ensures sc.chat.session.isLoading && (ev.ClearPressed? || ev.ResetPressed? || ev.ProviderChosen?) ==>
              t == UiTransition(sc, None)
    ensures t.next.view.input != sc.view.input ==>
              ev.Typed? || (ev.SubmitPressed? && t.next.view.input == [])
              || (ev.ReplyArrived? && sc.pending == AwaitingReply(true) && t.next.view.input == [])
  {
    var v := sc.view;
    var s := sc.chat;
    if Hidden(g, sc) && OnScreenControl(ev) then UiTransition(sc, None)
    else
      match ev
      case Typed(text) =>
        if InputDisabled(s.session.isLoading, v.isOnline) then UiTransition(sc, None)
        else UiTransition(sc.(view := v.(input := text)), None)
      case ConnectivityChanged(online) =>
        UiTransition(sc.(view := v.(isOnline := online)), None)
      case ProviderChosen(p) =>
        if ControlsDisabled(s.session.isLoading) then UiTransition(sc, None)
        else UiTransition(sc.(view := v.(preferredProvider := p)), None)
      case SubmitPressed(f) =>
        (match Submit(v, s, f)
         case Rejected => UiTransition(sc, None)
         case Admitted(Ignored) => UiTransition(sc.(view := v.(input := [])), None)
         case Admitted(Issued(s', req)) =>
           UiTransition(sc.(chat := s', pending := AwaitingReply(true)), Some(req)))
      case SuggestionClicked(text, f) =>
        if text !in s.quickSuggestions then UiTransition(sc, None)
        else
          (match ClickSuggestion(v, s, text, f)
           case Rejected => UiTransition(sc, None)
           case Admitted(Ignored) => UiTransition(sc, None)
           case Admitted(Issued(s', req)) =>
             UiTransition(sc.(chat := s', pending := AwaitingReply(false)), Some(req)))
      case ReplyArrived(reply, f) =>
        (match sc.pending
         case Idle => UiTransition(sc, None)
         case AwaitingReply(fromInput) =>
           var v' := if fromInput then v.(input := []) else v;
           UiTransition(sc.(view := v', chat := CompleteSend(s, reply, f), pending := Idle), None))
      case InitArrived(reply, f) =>
        if sc.initsPending == 0 then UiTransition(sc, None)
        else UiTransition(sc.(chat := CompleteInit(s, reply, f), initsPending := sc.initsPending - 1), None)
      case ClearPressed =>
        if ControlsDisabled(s.session.isLoading) then UiTransition(sc, None)
        else UiTransition(sc.(chat := Clear(s)), None)
      case ResetPressed =>
        if ControlsDisabled(s.session.isLoading) then UiTransition(sc, None)
        else UiTransition(sc.(chat := BeginReset(s), initsPending := sc.initsPending + 1), Some(CreateSession))
  }

  /** The hook's loading flag is up exactly while a send awaits its reply. */
  predicate Consistent(sc: Screen) {
    sc.chat.session.isLoading <==> sc.pending.AwaitingReply?
  }

  /** The screen right after mounting: empty input, online, Gemini
      preferred, nothing sent, and the mount effect's initialization in
      flight. */
  const Start: Screen := Screen(View([], true, Gemini), BeginInit(Initial), Idle, 1)

  /** Applies `events` in order under `g`, collecting the requests put on
      the wire. */
  function UiRun(g: Gate, sc: Screen, events: seq<UiEvent>): (r: (Screen, seq<Request>))
    decreases |events|
  {
    if events == [] then (sc, [])
    else
      var (mid, before) := UiRun(g, sc, events[..|events| - 1]);
      var t := UiStep(g, mid, events[|events| - 1]);
      (t.next, before + (if t.request.Some? then [t.request.value] else []))
  }

  /** The number of chat requests in a request log. */
  function ChatSends(rs: seq<Request>): (n: nat)
    ensures n <= |rs|
    decreases |rs|
  {
    if rs == [] then 0
    else ChatSends(rs[..|rs| - 1]) + (if rs[|rs| - 1].SendChat? then 1 else 0)
  }

  /** The number of replies in a run of events that arrive while a send is
      awaiting one, and so settle it. */
  function Settled(g: Gate, sc: Screen, events: seq<UiEvent>): (n: nat)
    ensures n <= |events|
    decreases |events|
  {
    if events == [] then 0
    else
      var n := |events| - 1;
      Settled(g, sc, events[..n])
        + (if events[n].ReplyArrived? && UiRun(g, sc, events[..n]).0.pending.AwaitingReply? then 1 else 0)
  }
}

=== FILE: chat_types.dfy ===
/** The records the chat client exchanges with its backend and keeps in
    memory (src/types/chat.ts). Wall-clock instants are plain integers
    (milliseconds); the `any[]` issuance list is kept as opaque strings. */
module ChatTypes {
  import opened Wrappers

  datatype Sender = User | Assistant

  /** A source citation attached to an answer. */
  datatype Source = Source(title: string, url: string)

  /** One entry of the conversation. The optional fields are the annotations
      an assistant answer may carry. */
  datatype ChatMessage = ChatMessage(
    id: string,
    content: string,
    sender: Sender,
    timestamp: int,
    isShariahCompliant: Option<bool>,
    principlesInvolved: Option<seq<string>>,
    recommendedIssuances: Option<seq<string>>,
    platformActions: Option<seq<string>>,
    modelUsed: Option<string>,
    cost: Option<real>,
    sources: Option<seq<Source>>)

  datatype UploadStatus = Processing | Completed | Failed

  /** A document the backend has stored for the session. */
  datatype UploadedDocument = UploadedDocument(
    id: int,
    fileName: string,
    fileType: string,
    fileSize: int,
    storageUrl: string,
    uploadStatus: UploadStatus,
    chunkCount: Option<int>,
    createdAt: string)

  /** The conversation record the hook owns. */
  datatype ChatSession = ChatSession(
    sessionId: string,
    userId: int,
    messages: seq<ChatMessage>,
    isLoading: bool,
    uploadedDocuments: Option<seq<UploadedDocument>>)

  /** The `data` part of a reply to a chat message. `quickSuggestions` is
      optional because the client tolerates its absence. */
  datatype ChatReply = ChatReply(
    response: string,
    isShariahCompliant: bool,
    principlesInvolved: seq<string>,
    recommendedIssuances: seq<string>,
    suggestedActions: seq<string>,
    quickSuggestions: Option<seq<string>>,
    sessionId: string,
    timestamp: string,
    personalized: bool,
    modelUsed: string,
    cost: real,
    sources: Option<seq<Source>>)

  /** The `data` part of a reply to a session-creation request. */
  datatype SessionReply = SessionReply(
    sessionId: string,
    userId: Option<int>,
    welcomeMessage: string,
    islamicPrinciples: seq<string>,
    platformFeatures: seq<string>)

  /** The `data` part of a reply to a document upload. */
  datatype UploadReply = UploadReply(
    documentId: int,
    fileName: string,
    fileType: string,
    totalChunks: int,
    storageUrl: string)

  /** A request the client puts on the wire. A chat request carries the text
      and the session handle and nothing else. */
  datatype Request =
    | CreateSession
    | SendChat(message: string, sessionId: string)
    | UploadDocument(fileName: string, fileType: string, fileSize: int, sessionId: string)

  /** What the client supplies for each new message: a fresh unique id and
      the current instant. */
  datatype Fresh = Fresh(id: string, at: int)
}

=== FILE: document_upload.dfy ===
/** The document upload panel (src/components/DocumentUpload.tsx): the
    checks a picked file goes through before it is sent, the document record
    built from a successful upload, the icon chosen for a file type and the
    unit chosen to display a size. */
module DocumentUpload {
  import opened Wrappers
  import opened Text
  import opened ChatTypes

  /** A file picked in the browser's file dialog. */
  datatype LocalFile = LocalFile(name: string, mimeType: string, size: nat)

  /** The MIME types accepted: PDF, DOCX, plain text, XLS and XLSX. */
  const AllowedTypes: seq<string> := [
    "application/pdf",
    "application/vnd.openxmlformats-officedocument.wordprocessingml.document",
    "text/plain",
    "application/vnd.ms-excel",
    "application/vnd.openxmlformats-officedocument.spreadsheetml.sheet"
  ]

  /** The largest accepted file: 10 MiB. */
  const MaxUploadBytes: nat := 10 * 1024 * 1024

  const TypeErrorText: string := "Invalid file type. Please upload PDF, DOCX, TXT, or Excel files."
  const SizeErrorText: string := "File size exceeds 10MB limit."
  /** The reason reported when the backend answers `success: false` without
      a message. */
  const UploadRefused: string := "Upload failed"
  /** The reason reported when the transport fails without any message. */
  const UploadFallback: string := "Failed to upload document"

  /** The outcome of the checks on a picked file. */
  datatype Check = Skip | Reject(reason: string) | Proceed(file: LocalFile)

  /** The checks, in order: a file and a session handle must both be present
      (otherwise nothing at all happens), the MIME type must be allowed, and
      the size must not exceed 10 MiB. */
  function Validate(file: Option<LocalFile>, sessionId: string): (c: Check)
    ensures c.Skip? <==> file.None? || sessionId == []
    ensures c == Reject(TypeErrorText) <==>
              file.Some? && sessionId != [] && file.value.mimeType !in AllowedTypes
    ensures c == Reject(SizeErrorText) <==>
              && file.Some? && sessionId != [] && file.value.mimeType in AllowedTypes
              && file.value.size > MaxUploadBytes
    ensures c.Proceed? <==>
              && file.Some? && sessionId != [] && file.value.mimeType in AllowedTypes
              && file.value.size <= MaxUploadBytes
    ensures c.Proceed? ==> c.file == file.value
  {
    match file
    case None => Skip
    case Some(f) =>
      if sessionId == [] then Skip
      else if f.mimeType !in AllowedTypes then Reject(TypeErrorText)
      else if f.size > MaxUploadBytes then Reject(SizeErrorText)
      else Proceed(f)
  }

  /** The panel's own state. */
  datatype Uploader = Uploader(isUploading: bool, uploadError: Option<string>)

  /** The synchronous part of a file pick: the panel's new state and the
      upload request, if one is sent. */
  datatype Started = Started(state: Uploader, request: Option<Request>)

  /** Picking a file. A skipped pick changes nothing; a rejected one shows
      its reason and sends nothing; an accepted one marks the panel busy,
      clears the error and sends the file with the session handle. */
  function BeginUpload(u: Uploader, file: Option<LocalFile>, sessionId: string): (r: Started)
    ensures r.request.Some? <==> Validate(file, sessionId).Proceed?
    ensures Validate(file, sessionId).Skip? ==> r.state == u
    ensures Validate(file, sessionId).Reject? ==>
              r.state == u.(uploadError := Some(Validate(file, sessionId).reason))
    ensures r.request.Some? ==>
              && r.state == Uploader(true, None)
              && r.request.value == UploadDocument(file.value.name, file.value.mimeType, file.value.size, sessionId)
  {
    match Validate(file, sessionId)
    case Skip => Started(u, None)
    case Reject(reason) => Started(u.(uploadError := Some(reason)), None)
    case Proceed(f) => Started(Uploader(true, None), Some(UploadDocument(f.name, f.mimeType, f.size, sessionId)))
  }

  /** The settled part of an upload: the panel's new state and the document
      handed to the parent, if any. */
  datatype Finished = Finished(state: Uploader, uploaded: Option<UploadedDocument>)

  /** The document record built from an accepted upload: identity, name, type,
      location and chunk count come from the backend, the size from the local
      file, and it is complete from the start. */
  function NewDocument(file: LocalFile, reply: UploadReply, createdAt: string): (d: UploadedDocument)
    ensures d.id == reply.documentId && d.fileName == reply.fileName && d.fileType == reply.fileType
    ensures d.storageUrl == reply.storageUrl && d.chunkCount == Some(reply.totalChunks)
    ensures d.fileSize == file.size
    ensures d.uploadStatus == Completed && d.createdAt == createdAt
  {
    UploadedDocument(reply.documentId, reply.fileName, reply.fileType, file.size,
                     reply.storageUrl, Completed, Some(reply.totalChunks), createdAt)
  }

  /** Settling an upload. In every case the panel stops being busy. On
      success the new document goes to the parent and the error slot is left
      as it was; otherwise no document is handed over and the error slot
      shows the backend's message, "Upload failed" when that is empty, or for
      a transport failure its reason, "Failed to upload document" when that
      is empty. */
  function CompleteUpload(u: Uploader, file: LocalFile, transport: Result<Envelope<UploadReply>>, createdAt: string): (r: Finished)
    ensures !r.state.isUploading
    ensures r.uploaded.Some? <==> transport.Ok? && transport.payload.success
    ensures r.uploaded.Some? ==>
              && r.uploaded.value.id == transport.payload.data.documentId
              && r.uploaded.value.fileSize == file.size
              && r.uploaded.value.uploadStatus == Completed
              && r.uploaded.value.chunkCount == Some(transport.payload.data.totalChunks)
              && r.state.uploadError == u.uploadError
    ensures transport.Ok? && !transport.payload.success ==>
              r.state.uploadError == Some(OrElse(transport.payload.message, UploadRefused))
    ensures transport.Err? ==>
              r.state.uploadError == Some(OrElse(transport.msg, UploadFallback))
    ensures r.uploaded.None? ==> r.state.uploadError.Some? && r.state.uploadError.value != []
  {
    match Settle(transport, UploadRefused)
    case Ok(reply) => Finished(u.(isUploading := false), Some(NewDocument(file, reply, createdAt)))
    case Err(m) => Finished(Uploader(false, Some(OrElse(m, UploadFallback))), None)
  }

  /** A whole file pick: the checks, and for an accepted file the upload
      settled by `transport`. Returns the panel's state, the document handed
      over and the requests sent. */
  datatype Attempt = Attempt(state: Uploader, uploaded: Option<UploadedDocument>, requests: seq<Request>)

  function PickFile(u: Uploader, file: Option<LocalFile>, sessionId: string,
                    transport: Result<Envelope<UploadReply>>, createdAt: string): (r: Attempt)
    ensures |r.requests| <= 1
    ensures r.requests != [] <==> Validate(file, sessionId).Proceed?
    ensures r.uploaded.Some? ==> r.requests != [] && transport.Ok? && transport.payload.success
    ensures !u.isUploading ==> !r.state.isUploading
  {
    var started := BeginUpload(u, file, sessionId);
    match started.request
    case None => Attempt(started.state, None, [])
    case Some(req) =>
      var finished := CompleteUpload(started.state, file.value, transport, createdAt);
      Attempt(finished.state, finished.uploaded, [req])
  }

  // ---------------------------------------------------------------------
  // Display helpers

  /** The icon shown beside a document. */
  datatype FileIcon = PdfIcon | WordIcon | SheetIcon | GenericIcon

  /** The icon for a file type, by substring with priority: "pdf" first, then
      "word", then "sheet" or "excel", otherwise the generic icon. */
  function IconFor(fileType: string): (i: FileIcon)
    ensures i == PdfIcon <==> Contains(fileType, "pdf")
    ensures i == WordIcon <==> !Contains(fileType, "pdf") && Contains(fileType, "word")
    ensures i == SheetIcon <==>
              && !Contains(fileType, "pdf") && !Contains(fileType, "word")
              && (Contains(fileType, "sheet") || Contains(fileType, "excel"))
    ensures i == GenericIcon <==>
              && !Contains(fileType, "pdf") && !Contains(fileType, "word")
              && !Contains(fileType, "sheet") && !Contains(fileType, "excel")
  {
    if Contains(fileType, "pdf") then PdfIcon
    else if Contains(fileType, "word") then WordIcon
    else if Contains(fileType, "sheet") || Contains(fileType, "excel") then SheetIcon
    else GenericIcon
  }

  /** The icon choice as the panel performs it: one substring search after
      another, stopping at the first hit. */
  method ClassifyFileType(fileType: string) returns (icon: FileIcon)
    ensures icon == IconFor(fileType)
  {
    var hit := Includes(fileType, "pdf");
    if hit { return PdfIcon; }
    hit := Includes(fileType, "word");
    if hit { return WordIcon; }
    hit := Includes(fileType, "sheet");
    if hit { return SheetIcon; }
    hit := Includes(fileType, "excel");
    if hit { return SheetIcon; }
    return GenericIcon;
  }

  /** The unit a size is displayed in. */
  datatype SizeUnit = B | KB | MB

  /** The unit `formatFileSize` picks: bytes below 1024, kilobytes below
      1024 * 1024, megabytes from there on. */
  function UnitFor(bytes: int): (u: SizeUnit)
    ensures u == B <==> bytes < 1024
    ensures u == KB <==> 1024 <= bytes < 1024 * 1024
    ensures u == MB <==> bytes >= 1024 * 1024
  {
    if bytes < 1024 then B
    else if bytes < 1024 * 1024 then KB
    else MB
  }
}

=== FILE: interface_properties.dfy ===
/** Properties of the chat screen: the send button agrees with the submit
    guard, the provider choice never reaches the wire, at most one send is
    in flight under either placeholder condition, the input box is cleared
    only after its send has settled, and the placeholder condition the
    screen writes can strand it, while the corrected one is always lifted. */
module InterfaceProperties {
  import opened Wrappers
  import opened Text
  import opened ChatTypes
  import opened ChatHook
  import opened ChatInterface

  /** The send button is disabled exactly when pressing it would be
      rejected. */
  lemma SendButtonMatchesSubmitGuard(input: string, isLoading: bool, isOnline: bool)
    ensures SendButtonDisabled(input, isLoading, isOnline) <==> SubmitRejected(input, isLoading, isOnline)
  {
  }

  /** Whichever provider is selected, a submit and a suggestion click have
      the same effect and put the same request on the wire. */
  lemma ProviderNeverForwarded(v: View, s: ChatState, p: Provider, suggestion: string, f: Fresh)
    ensures Submit(v.(preferredProvider := p), s, f) == Submit(v, s, f)
    ensures ClickSuggestion(v.(preferredProvider := p), s, suggestion, f) == ClickSuggestion(v, s, suggestion, f)
  {
  }

  /** While a send is in flight neither a submit nor a suggestion click can
      issue another. */
  lemma NoSecondSendWhileLoading(v: View, s: ChatState, suggestion: string, f: Fresh)
    requires s.session.isLoading
    ensures Submit(v, s, f).Rejected?
    ensures ClickSuggestion(v, s, suggestion, f).Rejected?
  {
  }

  /** 1 when a send is awaiting its reply, 0 otherwise. */
  function Outstanding(sc: Screen): nat {
    if sc.pending.AwaitingReply? then 1 else 0
  }

  /** Every screen event keeps the loading flag in step with the send
      awaiting its reply; a chat request is only issued when no send was
      awaiting one, and a reply settles the send awaiting it. Each step
      balances: a send issued adds one outstanding send, a reply that
      settles one removes it, and nothing else changes the count. */
  lemma StepKeepsSingleFlight(g: Gate, sc: Screen, ev: UiEvent)
    requires Consistent(sc)
    ensures Consistent(UiStep(g, sc, ev).next)
    ensures var t := UiStep(g, sc, ev);
      t.request.Some? && t.request.value.SendChat? ==> sc.pending.Idle? && t.next.pending.AwaitingReply?
    ensures var t := UiStep(g, sc, ev);
      ev.ReplyArrived? && sc.pending.AwaitingReply? ==> t.next.pending.Idle?
    ensures var t := UiStep(g, sc, ev);
      (if t.request.Some? && t.request.value.SendChat? then 1 else 0) + Outstanding(sc)
        == (if ev.ReplyArrived? && sc.pending.AwaitingReply? then 1 else 0) + Outstanding(t.next)
  {
  }

  /** Over any run of screen events from a consistent state, under either
      placeholder condition, every chat
      request is accounted for: requests issued plus the send outstanding at
      the start equal the replies that settled a send plus the send still
      outstanding at the end. */
  lemma {:induction false} RunKeepsSingleFlight(g: Gate, sc: Screen, events: seq<UiEvent>)
    requires Consistent(sc)
    ensures var (final, requests) := UiRun(g, sc, events);
      && Consistent(final)
      && ChatSends(requests) + Outstanding(sc) == Settled(g, sc, events) + Outstanding(final)
    decreases |events|
  {
    if events != [] {
      var n := |events| - 1;
      var prefix := events[..n];
      RunKeepsSingleFlight(g, sc, prefix);
      var (mid, before) := UiRun(g, sc, prefix);
      var t := UiStep(g, mid, events[n]);
      StepKeepsSingleFlight(g, mid, events[n]);
      var requests := before + (if t.request.Some? then [t.request.value] else []);
      if t.request.Some? {
        assert requests[..|requests| - 1] == before;
      } else {
        assert requests == before;
      }
      assert events[..|events| - 1] == prefix;
    }
  }

  /** Hence, while no reply has settled a send, a run issues at most one
      chat request. */
  lemma AtMostOneSendWithoutReply(g: Gate, sc: Screen, events: seq<UiEvent>)
    requires Consistent(sc)
    requires Settled(g, sc, events) == 0
    ensures ChatSends(UiRun(g, sc, events).1) <= 1
  {
    RunKeepsSingleFlight(g, sc, events);
  }

  /** Running one more screen event is one more step from where the run
      stood. */
  lemma UiRunSnoc(g: Gate, sc: Screen, events: seq<UiEvent>, ev: UiEvent)
    ensures var (mid, before) := UiRun(g, sc, events);
      var t := UiStep(g, mid, ev);
      UiRun(g, sc, events + [ev]) == (t.next, before + (if t.request.Some? then [t.request.value] else []))
  {
    assert (events + [ev])[..|events|] == events;
  }

  /** Pressing send twice in immediate succession puts exactly one request on
      the wire: the first press sets the loading flag and the second is
      rejected. */
  lemma DoubleSubmitSendsOnce(g: Gate, sc: Screen, f1: Fresh, f2: Fresh)
    requires Consistent(sc) && sc.pending.Idle? && !Hidden(g, sc)
    requires sc.view.isOnline && !IsBlank(sc.view.input) && sc.chat.session.sessionId != []
    ensures UiRun(g, sc, [SubmitPressed(f1), SubmitPressed(f2)]).1
              == [SendChat(sc.view.input, sc.chat.session.sessionId)]
  {
    var first := UiStep(g, sc, SubmitPressed(f1));
    var sent := BeginSend(sc.chat, sc.view.input, f1);
    assert first == UiTransition(sc.(chat := sent.state, pending := AwaitingReply(true)), Some(sent.request));
    var none: seq<UiEvent> := [];
    assert UiRun(g, sc, none) == (sc, []);
    UiRunSnoc(g, sc, none, SubmitPressed(f1));
    assert none + [SubmitPressed(f1)] == [SubmitPressed(f1)];
    assert UiRun(g, sc, [SubmitPressed(f1)]) == (first.next, [] + [sent.request]);
    assert UiStep(g, first.next, SubmitPressed(f2)) == UiTransition(first.next, None);
    UiRunSnoc(g, sc, [SubmitPressed(f1)], SubmitPressed(f2));
    assert [SubmitPressed(f1)] + [SubmitPressed(f2)] == [SubmitPressed(f1), SubmitPressed(f2)];
  }

  /** A rejected submit leaves the input box untouched. */
  lemma RejectedSubmitKeepsInput(g: Gate, sc: Screen, f: Fresh)
    requires SubmitRejected(sc.view.input, sc.chat.session.isLoading, sc.view.isOnline)
    ensures UiStep(g, sc, SubmitPressed(f)).next == sc
    ensures UiStep(g, sc, SubmitPressed(f)).request.None?
  {
  }

  /** A submit that issues a send keeps the typed text in the box while the
      send is in flight and clears it when the reply arrives, whatever the
      reply. */
  lemma SubmitClearsInputAfterReply(g: Gate, sc: Screen, f: Fresh, reply: Result<ChatReply>, answered: Fresh)
    requires UiStep(g, sc, SubmitPressed(f)).request.Some?
    ensures UiStep(g, sc, SubmitPressed(f)).next.view.input == sc.view.input
    ensures UiStep(g, UiStep(g, sc, SubmitPressed(f)).next, ReplyArrived(reply, answered)).next.view.input == []
  {
    var sub := Submit(sc.view, sc.chat, f);
    assert sub.Admitted? && sub.sent.Issued?;
    var t := UiStep(g, sc, SubmitPressed(f));
    assert t.next == sc.(chat := sub.sent.state, pending := AwaitingReply(true));
  }

  /** An accepted screen event drives the hook exactly as the hook's own
      reducer does: a submit or a listed suggestion passes its text to the
      send, a reply settles it, clear, reset and a session reply apply the
      hook's step; typing, connectivity and the provider selector change the
      screen's own fields. A reply with none awaited changes nothing. */
  lemma UiStepAppliesHook(g: Gate, sc: Screen, ev: UiEvent)
    ensures var t := UiStep(g, sc, ev);
      ev.SubmitPressed? && !Hidden(g, sc) && !SubmitRejected(sc.view.input, sc.chat.session.isLoading, sc.view.isOnline) ==>
        var h := Step(sc.chat, SendStarted(sc.view.input, ev.asked));
        t.next.chat == h.state && t.request == h.request
    ensures var t := UiStep(g, sc, ev);
      && ev.SuggestionClicked? && !Hidden(g, sc) && ev.suggestion in sc.chat.quickSuggestions
      && !SuggestionRejected(sc.chat.session.isLoading, sc.view.isOnline) ==>
        var h := Step(sc.chat, SendStarted(ev.suggestion, ev.asked));
        t.next.chat == h.state && t.request == h.request
    ensures var t := UiStep(g, sc, ev);
      ev.ReplyArrived? && sc.pending.AwaitingReply? ==>
        t.next.chat == Step(sc.chat, SendSettled(ev.reply, ev.answered)).state
        && t.next.pending.Idle? && t.request.None?
    ensures ev.ReplyArrived? && sc.pending.Idle? ==> UiStep(g, sc, ev) == UiTransition(sc, None)
    ensures var t := UiStep(g, sc, ev);
      ev.InitArrived? && sc.initsPending > 0 ==>
        t.next.chat == Step(sc.chat, InitSettled(ev.sessionReply, ev.welcome)).state && t.request.None?
    ensures var t := UiStep(g, sc, ev);
      ev.ClearPressed? && !Hidden(g, sc) && !ControlsDisabled(sc.chat.session.isLoading) ==>
        t.next.chat == Step(sc.chat, Cleared).state && t.request.None?
    ensures var t := UiStep(g, sc, ev);
      ev.ResetPressed? && !Hidden(g, sc) && !ControlsDisabled(sc.chat.session.isLoading) ==>
        var h := Step(sc.chat, ResetStarted);
        t.next.chat == h.state && t.request == h.request
    ensures var t := UiStep(g, sc, ev);
      ev.Typed? && !Hidden(g, sc) && !InputDisabled(sc.chat.session.isLoading, sc.view.isOnline) ==>
        t.next == sc.(view := sc.view.(input := ev.text)) && t.request.None?
    ensures var t := UiStep(g, sc, ev);
      ev.ConnectivityChanged? ==> t.next == sc.(view := sc.view.(isOnline := ev.online)) && t.request.None?
    ensures var t := UiStep(g, sc, ev);
      ev.ProviderChosen? && !Hidden(g, sc) && !ControlsDisabled(sc.chat.session.isLoading) ==>
        t.next == sc.(view := sc.view.(preferredProvider := ev.provider)) && t.request.None?
  {
  }

  /** The hook's half of the placeholder condition holds on a fresh state
      and immediately after every reset, and does not hold immediately after
      a session reply is applied, whether it succeeded or failed. */
  lemma InitializingWindow(s: ChatState, reply: Result<SessionReply>, f: Fresh)
    ensures ShowsInitializing(Initial)
    ensures ShowsInitializing(BeginReset(s))
    ensures reply.Err? ==> !ShowsInitializing(CompleteInit(s, reply, f))
    ensures reply.Ok? ==> !ShowsInitializing(CompleteInit(s, reply, f))
  {
  }

  /** After the mount's initialization fails, the clear button wipes the
      error, and the placeholder condition the screen writes holds again with
      no initialization in flight and nothing sent. Both gates agree up to
      that point, since the failure leaves the error on display. */
  lemma FailedInitThenClear(g: Gate, reason: string, f: Fresh)
    ensures var (final, requests) := UiRun(g, Start, [InitArrived(Err(reason), f), ClearPressed]);
      && ShowsInitializing(final.chat)
      && final.initsPending == 0
      && final.pending.Idle?
      && requests == []
  {
    var failed := UiStep(g, Start, InitArrived(Err(reason), f));
    assert !ShowsInitializing(failed.next.chat) && failed.request.None?;
    var none: seq<UiEvent> := [];
    UiRunSnoc(g, Start, none, InitArrived(Err(reason), f));
    assert none + [InitArrived(Err(reason), f)] == [InitArrived(Err(reason), f)];
    UiRunSnoc(g, Start, [InitArrived(Err(reason), f)], ClearPressed);
    assert [InitArrived(Err(reason), f)] + [ClearPressed] == [InitArrived(Err(reason), f), ClearPressed];
  }

  /** The requests a single screen transition puts on the wire. */
  function Sent(t: UiTransition): seq<Request> {
    if t.request.Some? then [t.request.value] else []
  }

  /** A run that stood at `mid` having sent `sent` goes one step further
      with one more event. */
  lemma RunExtend(g: Gate, sc: Screen, events: seq<UiEvent>, ev: UiEvent, mid: Screen, sent: seq<Request>)
    requires UiRun(g, sc, events) == (mid, sent)
    ensures UiRun(g, sc, events + [ev]) == (UiStep(g, mid, ev).next, sent + Sent(UiStep(g, mid, ev)))
  {
    UiRunSnoc(g, sc, events, ev);
  }

  /** A second way into the placeholder condition: a reset whose
      initialization fails keeps the old session handle and shows the error;
      a message sent then clears the error when it is invoked, and its
      successful reply leaves the condition holding, with no initialization
      and no send in flight. */
  lemma {:induction false} FailedResetThenSend(g: Gate, sc: Screen, reason: string, welcome: Fresh,
                                               asked: Fresh, reply: ChatReply, answered: Fresh)
    requires Consistent(sc) && sc.pending.Idle? && !Hidden(g, sc)
    requires sc.view.isOnline && !IsBlank(sc.view.input) && sc.chat.session.sessionId != []
    ensures var events := [ResetPressed, InitArrived(Err(reason), welcome), SubmitPressed(asked), ReplyArrived(Ok(reply), answered)];
      var (final, requests) := UiRun(g, sc, events);
      && ShowsInitializing(final.chat)
      && final.initsPending == sc.initsPending
      && final.pending.Idle?
      && requests == [CreateSession, SendChat(sc.view.input, sc.chat.session.sessionId)]
  {
    var e1, e2, e3, e4 := ResetPressed, InitArrived(Err(reason), welcome), SubmitPressed(asked), ReplyArrived(Ok(reply), answered);
    var t1 := UiStep(g, sc, e1);
    var reset := BeginReset(sc.chat);
    assert t1 == UiTransition(sc.(chat := reset, initsPending := sc.initsPending + 1), Some(CreateSession));
    var t2 := UiStep(g, t1.next, e2);
    var failed := CompleteInit(reset, Err(reason), welcome);
    assert t2 == UiTransition(sc.(chat := failed), None);
    assert failed.error.Some? && failed.session == reset.session && !failed.isInitialized;
    var t3 := UiStep(g, t2.next, e3);
    var sent := BeginSend(failed, sc.view.input, asked);
    assert !Hidden(g, t2.next);
    assert sent.Issued? && sent.request == SendChat(sc.view.input, sc.chat.session.sessionId);
    assert t3 == UiTransition(sc.(chat := sent.state, pending := AwaitingReply(true)), Some(sent.request));
    var t4 := UiStep(g, t3.next, e4);
    var answeredState := CompleteSend(sent.state, Ok(reply), answered);
    assert t4.next.chat == answeredState && t4.request.None? && t4.next.pending.Idle?;
    assert ShowsInitializing(answeredState);
    var none: seq<UiEvent> := [];
    assert UiRun(g, sc, none) == (sc, []);
    RunExtend(g, sc, none, e1, sc, []);
    assert none + [e1] == [e1];
    RunExtend(g, sc, [e1], e2, t1.next, [] + Sent(t1));
    assert [e1] + [e2] == [e1, e2];
    RunExtend(g, sc, [e1, e2], e3, t2.next, [] + Sent(t1) + Sent(t2));
    assert [e1, e2] + [e3] == [e1, e2, e3];
    RunExtend(g, sc, [e1, e2, e3], e4, t3.next, [] + Sent(t1) + Sent(t2) + Sent(t3));
    assert [e1, e2, e3] + [e4] == [e1, e2, e3, e4];
  }

  /** Once there, the screen as written is stranded: with every control
      hidden, no event issues a request or lifts the placeholder. */
  lemma AsWrittenPlaceholderStuck(sc: Screen, ev: UiEvent)
    requires ShowsInitializing(sc.chat) && sc.initsPending == 0 && sc.pending.Idle?
    ensures var t := UiStep(AsWritten, sc, ev);
      && t.request.None?
      && ShowsInitializing(t.next.chat) && t.next.initsPending == 0 && t.next.pending.Idle?
  {
  }

  /** The corrected placeholder never strands the screen: when it is shown,
      the session reply it waits for lifts it, whatever that reply is; when
      it is not, and no send is in flight, the reset button requests a new
      session. */
  lemma PlaceholderLifts(sc: Screen, reply: Result<SessionReply>, f: Fresh)
    requires !sc.chat.session.isLoading
    ensures PlaceholderShown(sc) ==> !PlaceholderShown(UiStep(Corrected, sc, InitArrived(reply, f)).next)
    ensures !PlaceholderShown(sc) ==> UiStep(Corrected, sc, ResetPressed).request == Some(CreateSession)
  {
    InitializingWindow(sc.chat, reply, f);
  }

  /** The correction changes the screen only in the stranded state: the two
      gates differ exactly when the placeholder condition holds with no
      initialization in flight, and outside it every event has the same
      effect under both. */
  lemma GatesDifferOnlyWhenStranded(sc: Screen, ev: UiEvent)
    ensures Hidden(AsWritten, sc) != Hidden(Corrected, sc) <==> ShowsInitializing(sc.chat) && sc.initsPending == 0
    ensures !(ShowsInitializing(sc.chat) && sc.initsPending == 0) ==> UiStep(AsWritten, sc, ev) == UiStep(Corrected, sc, ev)
  {
  }
}

=== FILE: session_properties.dfy ===
/** Properties of the chat-session reducer that relate several steps:
    whole conversations, reset followed by initialization, and the worked
    scenario of a first question. */
module SessionProperties {
  import opened Wrappers
  import opened Text
  import opened ChatTypes
  import opened ChatHook

  /** One question and its settled answer, with the fresh ids and instants
      used for the two messages. */
  datatype Exchange = Exchange(question: string, asked: Fresh, answer: Result<ChatReply>, answered: Fresh)

  /** The events of a conversation: each exchange is a send followed by its
      settlement, with nothing in between. */
  function ExchangeEvents(xs: seq<Exchange>): (es: seq<Event>)
    ensures |es| == 2 * |xs|
    decreases |xs|
  {
    if xs == [] then []
    else
      var x := xs[|xs| - 1];
      ExchangeEvents(xs[..|xs| - 1]) + [SendStarted(x.question, x.asked), SendSettled(x.answer, x.answered)]
  }

  /** The reference transcript: `start` followed, for every exchange, by the
      trimmed question from the user and then the assistant's reply. */
  function Transcript(start: seq<ChatMessage>, xs: seq<Exchange>): seq<ChatMessage>
    decreases |xs|
  {
    if xs == [] then start
    else
      var x := xs[|xs| - 1];
      Transcript(start, xs[..|xs| - 1])
        + [PlainMessage(x.asked, Trim(x.question), User), ReplyMessage(x.answer, x.answered)]
  }

  /** The reference request log: one chat request per exchange, carrying the
      question exactly as typed and the session handle. */
  function ChatRequests(xs: seq<Exchange>, sessionId: string): (rs: seq<Request>)
    ensures |rs| == |xs|
    decreases |xs|
  {
    if xs == [] then []
    else ChatRequests(xs[..|xs| - 1], sessionId) + [SendChat(xs[|xs| - 1].question, sessionId)]
  }

  /** The k-th exchange appears in `t` at offset `base + 2k`: the trimmed
      question from the user, then the reply. */
  predicate ShowsExchange(t: seq<ChatMessage>, base: nat, xs: seq<Exchange>, k: nat)
    requires k < |xs| && base + 2 * |xs| <= |t|
  {
    && t[base + 2 * k] == PlainMessage(xs[k].asked, Trim(xs[k].question), User)
    && t[base + 2 * k + 1] == ReplyMessage(xs[k].answer, xs[k].answered)
  }

  /** A transcript keeps its start and grows by two messages per exchange. */
  lemma {:induction false} TranscriptLength(start: seq<ChatMessage>, xs: seq<Exchange>)
    ensures |Transcript(start, xs)| == |start| + 2 * |xs|
    ensures Transcript(start, xs)[..|start|] == start
    decreases |xs|
  {
    if xs != [] {
      var prefix := xs[..|xs| - 1];
      TranscriptLength(start, prefix);
      var t0 := Transcript(start, prefix);
      var t := Transcript(start, xs);
      assert t[..|start|] == t0[..|start|];
    }
  }

  /** The sender expected at distance `d` after the start of a conversation
      that alternates, beginning with the user. */
  function SenderAt(d: nat): Sender {
    if d % 2 == 0 then User else Assistant
  }

  /** From offset `base` on, `t` alternates user, assistant, user, ... */
  predicate Alternates(t: seq<ChatMessage>, base: nat) {
    forall i :: base <= i < |t| ==> t[i].sender == SenderAt(i - base)
  }

  /** Appending a user message and an assistant message to an alternating
      sequence of even length past `base` keeps it alternating. */
  lemma AlternatesSnoc(t: seq<ChatMessage>, base: nat, u: ChatMessage, a: ChatMessage)
    requires base <= |t| && (|t| - base) % 2 == 0 && Alternates(t, base)
    requires u.sender == User && a.sender == Assistant
    ensures Alternates(t + [u, a], base)
  {
    var t' := t + [u, a];
    forall i | base <= i < |t'| ensures t'[i].sender == SenderAt(i - base) {
      if i < |t| {
        assert t'[i] == t[i];
      } else if i == |t| {
        assert t'[i] == u;
      } else {
        assert t'[i] == a;
        assert (i - base) % 2 == 1;
      }
    }
  }

  /** After its start, a transcript alternates strictly: user, assistant,
      user, assistant, ... */
  lemma {:induction false} TranscriptSenders(start: seq<ChatMessage>, xs: seq<Exchange>)
    ensures Alternates(Transcript(start, xs), |start|)
    decreases |xs|
  {
    if xs != [] {
      var n := |xs| - 1;
      var prefix := xs[..n];
      TranscriptSenders(start, prefix);
      TranscriptLength(start, prefix);
      AlternatesSnoc(Transcript(start, prefix), |start|,
                     PlainMessage(xs[n].asked, Trim(xs[n].question), User),
                     ReplyMessage(xs[n].answer, xs[n].answered));
    }
  }

  /** `ShowsExchange` from the two messages found at its offsets. */
  lemma ShowsExchangeAt(t: seq<ChatMessage>, base: nat, xs: seq<Exchange>, k: nat, u: ChatMessage, a: ChatMessage)
    requires k < |xs| && base + 2 * |xs| <= |t|
    requires u == PlainMessage(xs[k].asked, Trim(xs[k].question), User)
    requires a == ReplyMessage(xs[k].answer, xs[k].answered)
    requires t[base + 2 * k] == u && t[base + 2 * k + 1] == a
    ensures ShowsExchange(t, base, xs, k)
  {
  }

  /** The k-th exchange of a transcript shows the trimmed question directly
      followed by its reply, 2k messages after the start. */
  lemma {:induction false} TranscriptExchange(start: seq<ChatMessage>, xs: seq<Exchange>, k: nat)
    requires k < |xs|
    ensures |Transcript(start, xs)| == |start| + 2 * |xs|
    ensures ShowsExchange(Transcript(start, xs), |start|, xs, k)
    decreases |xs|
  {
    TranscriptLength(start, xs);
    var n := |xs| - 1;
    var prefix := xs[..n];
    TranscriptLength(start, prefix);
    var t0 := Transcript(start, prefix);
    var t := Transcript(start, xs);
    var i := |start| + 2 * k;
    var u := PlainMessage(xs[n].asked, Trim(xs[n].question), User);
    var a := ReplyMessage(xs[n].answer, xs[n].answered);
    assert t == t0 + [u, a];
    if k < n {
      TranscriptExchange(start, prefix, k);
      assert xs[k] == prefix[k];
      assert t[i] == t0[i];
      assert t[i + 1] == t0[i + 1];
      ShowsExchangeAt(t, |start|, xs, k, t0[i], t0[i + 1]);
    } else {
      assert k == n;
      assert t[i] == u;
      assert t[i + 1] == a;
      ShowsExchangeAt(t, |start|, xs, k, u, a);
    }
  }

  /** Running one more event is one more step from where the run stood. */
  lemma {:induction false} RunSnoc(s: ChatState, es: seq<Event>, e: Event)
    ensures var before := RunEvents(s, es);
      var t := Step(before.state, e);
      RunEvents(s, es + [e]) == Run(t.state, before.requests + RequestsOf(t))
  {
    assert (es + [e])[..|es|] == es;
  }

  /** Asking a question that is not blank, once there is a session handle,
      appends it and puts one chat request on the wire. */
  lemma {:induction false} RunAsk(s: ChatState, es: seq<Event>, question: string, asked: Fresh)
    requires RunEvents(s, es).state.session.sessionId != []
    requires !IsBlank(question)
    ensures var before := RunEvents(s, es);
      RunEvents(s, es + [SendStarted(question, asked)])
        == Run(BeginSend(before.state, question, asked).state,
               before.requests + [SendChat(question, before.state.session.sessionId)])
  {
    var before := RunEvents(s, es);
    var sent := BeginSend(before.state, question, asked);
    assert Step(before.state, SendStarted(question, asked)) == Transition(sent.state, Some(sent.request));
    RunSnoc(s, es, SendStarted(question, asked));
  }

  /** Settling a send appends the reply and issues nothing. */
  lemma {:induction false} RunSettle(s: ChatState, es: seq<Event>, answer: Result<ChatReply>, answered: Fresh)
    ensures var before := RunEvents(s, es);
      RunEvents(s, es + [SendSettled(answer, answered)])
        == Run(CompleteSend(before.state, answer, answered), before.requests)
  {
    var before := RunEvents(s, es);
    assert Step(before.state, SendSettled(answer, answered)) == Transition(CompleteSend(before.state, answer, answered), None);
    RunSnoc(s, es, SendSettled(answer, answered));
  }

  /** One exchange from a state with a session handle and a question that is
      not blank: the question and its reply are appended, one chat request
      goes out, and loading ends. */
  lemma {:induction false} RunExchange(s: ChatState, es: seq<Event>, x: Exchange)
    requires RunEvents(s, es).state.session.sessionId != []
    requires !IsBlank(x.question)
    ensures var before := RunEvents(s, es);
      var after := RunEvents(s, es + [SendStarted(x.question, x.asked), SendSettled(x.answer, x.answered)]);
      && after.state.session.messages
           == before.state.session.messages + [PlainMessage(x.asked, Trim(x.question), User), ReplyMessage(x.answer, x.answered)]
      && after.state.session.sessionId == before.state.session.sessionId
      && after.state.session.userId == before.state.session.userId
      && after.state.isInitialized == before.state.isInitialized
      && !after.state.session.isLoading
      && after.requests == before.requests + [SendChat(x.question, before.state.session.sessionId)]
  {
    var ask := SendStarted(x.question, x.asked);
    var settle := SendSettled(x.answer, x.answered);
    var before := RunEvents(s, es);
    RunAsk(s, es, x.question, x.asked);
    RunSettle(s, es + [ask], x.answer, x.answered);
    assert es + [ask, settle] == (es + [ask]) + [settle];
    var sent := BeginSend(before.state, x.question, x.asked).state;
    var done := CompleteSend(sent, x.answer, x.answered);
    assert sent.session.messages == before.state.session.messages + [PlainMessage(x.asked, Trim(x.question), User)];
    assert done.session.messages == sent.session.messages + [ReplyMessage(x.answer, x.answered)];
  }

  /** Running a conversation from a state that has a session handle, with
      questions that are not blank, yields exactly the reference transcript,
      sends one chat request per question, in order and untrimmed, and leaves
      the session handle alone and loading off. */
  lemma {:induction false} ConversationRun(s: ChatState, xs: seq<Exchange>)
    requires s.session.sessionId != []
    requires forall k :: 0 <= k < |xs| ==> !IsBlank(xs[k].question)
    ensures var run := RunEvents(s, ExchangeEvents(xs));
      && run.state.session.messages == Transcript(s.session.messages, xs)
      && run.state.session.sessionId == s.session.sessionId
      && run.state.session.userId == s.session.userId
      && run.state.isInitialized == s.isInitialized
      && (xs != [] ==> !run.state.session.isLoading)
      && run.requests == ChatRequests(xs, s.session.sessionId)
    decreases |xs|
  {
    if xs != [] {
      var n := |xs| - 1;
      var x := xs[n];
      var prefix := xs[..n];
      forall k | 0 <= k < |prefix| ensures !IsBlank(prefix[k].question) {
        assert prefix[k] == xs[k];
      }
      ConversationRun(s, prefix);
      var e0 := ExchangeEvents(prefix);
      var es := e0 + [SendStarted(x.question, x.asked), SendSettled(x.answer, x.answered)];
      assert ExchangeEvents(xs) == es;
      RunExchange(s, e0, x);
      var r0 := RunEvents(s, e0);
      var r2 := RunEvents(s, es);
      assert Transcript(s.session.messages, xs)
          == Transcript(s.session.messages, prefix) + [PlainMessage(x.asked, Trim(x.question), User), ReplyMessage(x.answer, x.answered)];
    }
  }

  /** N exchanges after the welcome message leave 1 + 2N messages: the
      welcome, then user and assistant messages strictly alternating, each
      reply directly after the question it answers. This holds whether the
      replies succeeded or failed. */
  lemma {:induction false} ConversationFromWelcome(s: ChatState, xs: seq<Exchange>)
    requires s.session.sessionId != []
    requires |s.session.messages| == 1
    requires forall k :: 0 <= k < |xs| ==> !IsBlank(xs[k].question)
    ensures var m := RunEvents(s, ExchangeEvents(xs)).state.session.messages;
      && |m| == 1 + 2 * |xs|
      && m[0] == s.session.messages[0]
      && Alternates(m, 1)
      && (forall k :: 0 <= k < |xs| ==> m[2 * k + 1].content == Trim(xs[k].question))
  {
    ConversationRun(s, xs);
    TranscriptLength(s.session.messages, xs);
    var m := RunEvents(s, ExchangeEvents(xs)).state.session.messages;
    assert m[0] == m[..1][0];
    TranscriptSenders(s.session.messages, xs);
    forall k | 0 <= k < |xs| ensures m[2 * k + 1].content == Trim(xs[k].question) {
      TranscriptExchange(s.session.messages, xs, k);
    }
  }

  /** When every reply succeeds, the assistant message after the k-th
      question is the k-th answer's text. */
  lemma {:induction false} SuccessfulConversation(s: ChatState, xs: seq<Exchange>)
    requires s.session.sessionId != []
    requires |s.session.messages| == 1
    requires forall k :: 0 <= k < |xs| ==> !IsBlank(xs[k].question) && xs[k].answer.Ok?
    ensures var m := RunEvents(s, ExchangeEvents(xs)).state.session.messages;
      && |m| == 1 + 2 * |xs|
      && (forall k :: 0 <= k < |xs| ==> m[2 * k + 2].content == xs[k].answer.payload.response)
  {
    ConversationRun(s, xs);
    TranscriptLength(s.session.messages, xs);
    var m := RunEvents(s, ExchangeEvents(xs)).state.session.messages;
    forall k | 0 <= k < |xs| ensures m[2 * k + 2].content == xs[k].answer.payload.response {
      TranscriptExchange(s.session.messages, xs, k);
    }
  }

  /** A failed send keeps the user's message and follows it with exactly one
      apology; loading ends and the error slot names the failure. */
  lemma {:induction false} FailedSendKeepsQuestion(s: ChatState, content: string, asked: Fresh, reason: string, answered: Fresh)
    requires BeginSend(s, content, asked).Issued?
    ensures var r := CompleteSend(BeginSend(s, content, asked).state, Err(reason), answered);
      && |r.session.messages| == |s.session.messages| + 2
      && r.session.messages[..|s.session.messages|] == s.session.messages
      && r.session.messages[|s.session.messages|].sender == User
      && r.session.messages[|s.session.messages|].content == Trim(content)
      && r.session.messages[|s.session.messages| + 1].sender == Assistant
      && !r.session.isLoading
      && r.error.Some? && SendErrorPrefix <= r.error.value
      && r.quickSuggestions == s.quickSuggestions
  {
    var mid := BeginSend(s, content, asked).state;
    var r := CompleteSend(mid, Err(reason), answered);
    var n := |s.session.messages|;
    assert r.session.messages[..n] == mid.session.messages[..n];
    assert r.session.messages[n] == mid.session.messages[n];
  }

  /** Reset followed by a successful initialization leaves exactly the new
      welcome message, the new session handle and an initialized session. */
  lemma {:induction false} ResetThenInit(s: ChatState, reply: SessionReply, f: Fresh)
    ensures var r := CompleteInit(BeginReset(s), Ok(reply), f);
      && r.session.messages == [PlainMessage(f, reply.welcomeMessage, Assistant)]
      && r.session.sessionId == reply.sessionId
      && r.isInitialized
      && r.error == None
      && r.quickSuggestions == []
  {
  }

  /** Reset followed by a failed initialization leaves an empty,
      uninitialized conversation with the old session handle and an error. */
  lemma {:induction false} ResetThenFailedInit(s: ChatState, reason: string, f: Fresh)
    ensures var r := CompleteInit(BeginReset(s), Err(reason), f);
      && r.session.messages == []
      && r.session.sessionId == s.session.sessionId
      && !r.isInitialized
      && r.error == Some(InitErrorPrefix + reason)
  {
  }

  /** A session envelope settles initialization through the hook: a
      `success: true` envelope hands its data to the hook, and a
      `success: false` one leaves only the error "Failed to initialize chat:
      Failed to create session". */
  lemma {:induction false} SessionEnvelopeSettlesInit(s: ChatState, env: Envelope<SessionReply>, f: Fresh)
    ensures var t := Step(s, InitSettled(SettleSession(Ok(env)), f));
      && t.request.None?
      && (env.success ==> t.state == CompleteInit(s, Ok(env.data), f))
      && (!env.success ==> t.state == s.(error := Some(InitErrorPrefix + SessionRefused)))
  {
  }

  /** A chat envelope settles the send through the hook: a `success: true`
      envelope appends the answer built from its data; a `success: false`
      one appends the apology and sets the error, both naming the
      envelope's error text, or "Failed to send message" when that is
      empty. Loading ends either way. */
  lemma {:induction false} ChatEnvelopeSettlesSend(s: ChatState, env: Envelope<ChatReply>, f: Fresh)
    ensures var t := Step(s, SendSettled(SettleChat(Ok(env)), f));
      && t.request.None?
      && !t.state.session.isLoading
      && (env.success ==> t.state.session.messages == s.session.messages + [AnswerMessage(env.data, f)])
      && (!env.success ==>
            var reason := OrElse(env.message, SendRefused);
            && t.state.session.messages == s.session.messages + [PlainMessage(f, ApologyPrefix + reason + ApologySuffix, Assistant)]
            && t.state.error == Some(SendErrorPrefix + reason))
  {
  }

  /** From the initial state nothing can be sent: there is no session
      handle yet. */
  lemma {:induction false} InitialIgnoresSends(content: string, f: Fresh)
    ensures Initial.session.userId == 1 && !Initial.session.isLoading && !Initial.isInitialized
    ensures Step(Initial, SendStarted(content, f)) == Transition(Initial, None)
  {
  }

  /** Initializing from the initial state against a backend that accepts
      leaves exactly the greeting and one session request. */
  lemma {:induction false} GreetingRun(reply: SessionReply, welcome: Fresh)
    ensures var run := RunEvents(Initial, [InitStarted, InitSettled(Ok(reply), welcome)]);
      && run.state.session.messages == [PlainMessage(welcome, reply.welcomeMessage, Assistant)]
      && run.state.session.sessionId == reply.sessionId
      && run.state.quickSuggestions == []
      && run.requests == [CreateSession]
  {
    RunSnoc(Initial, [], InitStarted);
    assert [] + [InitStarted] == [InitStarted];
    RunSnoc(Initial, [InitStarted], InitSettled(Ok(reply), welcome));
    assert [InitStarted] + [InitSettled(Ok(reply), welcome)] == [InitStarted, InitSettled(Ok(reply), welcome)];
    var r := RunEvents(Initial, [InitStarted, InitSettled(Ok(reply), welcome)]);
    assert r.state == CompleteInit(BeginInit(Initial), Ok(reply), welcome);
  }

  /** The first question: after initializing against a backend that issues
      a session handle, asking a question that is not blank and receiving an
      answer yields the welcome, the trimmed question and the answer in that
      order, the answer's suggestions, and exactly two requests: the session
      creation and the question as typed. */
  lemma {:induction false} FirstQuestionScenario(hello: SessionReply, question: string, reply: ChatReply,
                                                 welcome: Fresh, asked: Fresh, answered: Fresh)
    requires hello.sessionId != [] && !IsBlank(question)
    ensures var run := RunEvents(Initial, [
        InitStarted,
        InitSettled(Ok(hello), welcome),
        SendStarted(question, asked),
        SendSettled(Ok(reply), answered)]);
      && run.state.session.messages == [
           PlainMessage(welcome, hello.welcomeMessage, Assistant),
           PlainMessage(asked, Trim(question), User),
           AnswerMessage(reply, answered)]
      && run.state.session.messages[2].content == reply.response
      && run.state.quickSuggestions == reply.quickSuggestions.GetOr([])
      && !run.state.session.isLoading
      && run.requests == [CreateSession, SendChat(question, hello.sessionId)]
  {
    var e2 := [InitStarted, InitSettled(Ok(hello), welcome)];
    var e3 := e2 + [SendStarted(question, asked)];
    var e4 := e3 + [SendSettled(Ok(reply), answered)];
    GreetingRun(hello, welcome);
    var greeting := PlainMessage(welcome, hello.welcomeMessage, Assistant);
    var asking := PlainMessage(asked, Trim(question), User);
    RunAsk(Initial, e2, question, asked);
    var r3 := RunEvents(Initial, e3);
    assert r3.state.session.messages == [greeting, asking];
    assert r3.requests == [CreateSession, SendChat(question, hello.sessionId)];
    RunSettle(Initial, e3, Ok(reply), answered);
    var r4 := RunEvents(Initial, e4);
    assert r4.state.session.messages == [greeting, asking] + [AnswerMessage(reply, answered)];
    assert e4 == [InitStarted, InitSettled(Ok(hello), welcome), SendStarted(question, asked), SendSettled(Ok(reply), answered)];
  }
}

=== FILE: text.dfy ===
/** The two JavaScript string operations the chat client branches on:
    `String.prototype.trim` and `String.prototype.includes`. */
module Text {

  /** The code points ECMAScript's `trim` removes: WhiteSpace (tab, vertical
      tab, form feed, space, no-break space, byte order mark and the Zs
      space separators) and LineTerminator (line feed, carriage return, line
      and paragraph separators). */
  predicate IsWhitespace(c: char) {
    || c == '\t' || c == '\n' || c == '\U{000B}' || c == '\U{000C}' || c == '\r'
    || c == ' ' || c == '\U{00A0}' || c == '\U{1680}'
    || ('\U{2000}' <= c <= '\U{200A}')
    || c == '\U{2028}' || c == '\U{2029}' || c == '\U{202F}' || c == '\U{205F}'
    || c == '\U{3000}' || c == '\U{FEFF}'
  }

  predicate AllWhitespace(s: string) {
    forall i :: 0 <= i < |s| ==> IsWhitespace(s[i])
  }

  /** `s` with its leading whitespace removed. */
  function TrimStart(s: string): string
    decreases |s|
  {
    if |s| > 0 && IsWhitespace(s[0]) then TrimStart(s[1..]) else s
  }

  /** `s` with its trailing whitespace removed. */
  function TrimEnd(s: string): string
    decreases |s|
  {
    if |s| > 0 && IsWhitespace(s[|s| - 1]) then TrimEnd(s[..|s| - 1]) else s
  }

  /** `TrimStart` leaves a suffix of `s`, removes only whitespace, and what
      remains does not start with whitespace. */
  lemma {:induction false} TrimStartShape(s: string)
    ensures |TrimStart(s)| <= |s| && TrimStart(s) == s[|s| - |TrimStart(s)|..]
    ensures AllWhitespace(s[..|s| - |TrimStart(s)|])
    ensures TrimStart(s) == [] || !IsWhitespace(TrimStart(s)[0])
    decreases |s|
  {
    if |s| > 0 && IsWhitespace(s[0]) {
      TrimStartShape(s[1..]);
      var r := TrimStart(s[1..]);
      assert s[..|s| - |r|] == [s[0]] + s[1..][..|s[1..]| - |r|];
    }
  }

  /** `TrimEnd` leaves a prefix of `s`, removes only whitespace, and what
      remains does not end with whitespace. */
  lemma {:induction false} TrimEndShape(s: string)
    ensures |TrimEnd(s)| <= |s| && TrimEnd(s) == s[..|TrimEnd(s)|]
    ensures AllWhitespace(s[|TrimEnd(s)|..])
    ensures TrimEnd(s) == [] || !IsWhitespace(TrimEnd(s)[|TrimEnd(s)| - 1])
    decreases |s|
  {
    if |s| > 0 && IsWhitespace(s[|s| - 1]) {
      TrimEndShape(s[..|s| - 1]);
      var r := TrimEnd(s[..|s| - 1]);
      assert s[|r|..] == s[..|s| - 1][|r|..] + [s[|s| - 1]];
    }
  }

  /** JavaScript `s.trim()`: leading and then trailing whitespace removed. */
  function Trim(s: string): string {
    TrimEnd(TrimStart(s))
  }

  /** What `trim` leaves is the infix of `s` obtained by removing only
      whitespace at both ends, and it neither starts nor ends with
      whitespace. */
  lemma TrimShape(s: string)
    ensures |Trim(s)| <= |s|
    ensures exists i :: 0 <= i <= |s| - |Trim(s)| && Trim(s) == s[i..i + |Trim(s)|]
                        && AllWhitespace(s[..i]) && AllWhitespace(s[i + |Trim(s)|..])
    ensures Trim(s) == [] || (!IsWhitespace(Trim(s)[0]) && !IsWhitespace(Trim(s)[|Trim(s)| - 1]))
  {
    var t := TrimStart(s);
    TrimStartShape(s);
    TrimEndShape(t);
    var r := TrimEnd(t);
    var i := |s| - |t|;
    assert r == s[i..i + |r|];
    assert s[i + |r|..] == t[|r|..];
  }

  /** JavaScript `!s.trim()`: the trimmed string is empty, hence falsy. */
  predicate IsBlank(s: string) {
    Trim(s) == []
  }

  /** A string is blank exactly when every one of its characters is
      whitespace. */
  lemma BlankIffAllWhitespace(s: string)
    ensures IsBlank(s) <==> AllWhitespace(s)
  {
    if IsBlank(s) {
      TrimStartShape(s);
      var t := TrimStart(s);
      TrimEndShape(t);
      assert t[0..] == t;
      assert t == [];
      assert s[..|s|] == s;
    }
    if AllWhitespace(s) {
      WhitespaceTrimsAway(s);
    }
  }

  /** Text made only of whitespace loses all of it to `TrimStart`. */
  lemma {:induction false} WhitespaceTrimsAway(s: string)
    requires AllWhitespace(s)
    ensures TrimStart(s) == []
    decreases |s|
  {
    if |s| > 0 {
      assert IsWhitespace(s[0]);
      assert forall k :: 0 <= k < |s| - 1 ==> s[1..][k] == s[k + 1];
      WhitespaceTrimsAway(s[1..]);
    }
  }

  /** Trimming a trimmed string changes nothing. */
  lemma TrimIdempotent(s: string)
    ensures Trim(Trim(s)) == Trim(s)
  {
    TrimShape(s);
    var r := Trim(s);
    if r != [] {
      assert TrimStart(r) == r;
      assert TrimEnd(r) == r;
    }
  }

  /** `sub` occurs in `s` starting at offset `i`. */
  predicate OccursAt(s: string, sub: string, i: int) {
    0 <= i <= |s| - |sub| && s[i..i + |sub|] == sub
  }

  /** JavaScript `s.includes(sub)`: `sub` occurs in `s` at some offset. */
  predicate Contains(s: string, sub: string) {
    exists i :: 0 <= i <= |s| - |sub| && OccursAt(s, sub, i)
  }

  /** The left-to-right search behind `includes`: tries every offset in turn
      and reports whether `sub` was found at one of them. */
  method Includes(s: string, sub: string) returns (found: bool)
    ensures found <==> Contains(s, sub)
    ensures found ==> |sub| <= |s|
  {
    if |sub| > |s| {
      return false;
    }
    var i := 0;
    while i <= |s| - |sub|
      invariant 0 <= i <= |s| - |sub| + 1
      invariant forall k :: 0 <= k < i ==> !OccursAt(s, sub, k)
    {
      if s[i..i + |sub|] == sub {
        assert OccursAt(s, sub, i);
        return true;
      }
      i := i + 1;
    }
    return false;
  }
}

=== FILE: upload_properties.dfy ===
/** Properties of the document upload panel: the order and bounds of its
    checks, what a whole file pick can leave behind, and the icons of the
    accepted file types. */
module UploadProperties {
  import opened Wrappers
  import opened Text
  import opened ChatTypes
  import opened DocumentUpload

  /** A substring cannot occur where one of its characters does not. */
  lemma AbsentCharacter(s: string, sub: string, c: char)
    requires c in sub && c !in s
    ensures !Contains(s, sub)
  {
  }

  /** The size limit is inclusive: a file of exactly 10 MiB of an allowed
      type is sent, one byte more is refused with the size message. */
  lemma SizeLimitInclusive(name: string, mimeType: string, sessionId: string)
    requires mimeType in AllowedTypes && sessionId != []
    ensures Validate(Some(LocalFile(name, mimeType, MaxUploadBytes)), sessionId).Proceed?
    ensures Validate(Some(LocalFile(name, mimeType, MaxUploadBytes + 1)), sessionId) == Reject(SizeErrorText)
  {
  }

  /** A file that is both of a refused type and too large is reported for
      its type: the type check comes first. */
  lemma TypeCheckFirst(f: LocalFile, sessionId: string)
    requires sessionId != [] && f.mimeType !in AllowedTypes && f.size > MaxUploadBytes
    ensures Validate(Some(f), sessionId) == Reject(TypeErrorText)
  {
  }

  /** A file pick from an idle panel leaves it idle whatever the outcome,
      and a document is handed over only for an accepted file whose upload
      the backend confirmed. */
  lemma {:induction false} PickLeavesIdle(file: Option<LocalFile>, sessionId: string, err: Option<string>,
                                          transport: Result<Envelope<UploadReply>>, createdAt: string)
    ensures var a := PickFile(Uploader(false, err), file, sessionId, transport, createdAt);
            && !a.state.isUploading
            && (a.uploaded.Some? <==> Validate(file, sessionId).Proceed? && transport.Ok? && transport.payload.success)
  {
    var a := PickFile(Uploader(false, err), file, sessionId, transport, createdAt);
    if Validate(file, sessionId).Proceed? {
      var started := BeginUpload(Uploader(false, err), file, sessionId);
      assert started.request.Some?;
      assert a.uploaded == CompleteUpload(started.state, file.value, transport, createdAt).uploaded;
    }
  }

  /** The icons of the short allowed types: the PDF type shows the PDF icon,
      plain text the generic icon, and the legacy Excel type the sheet icon. */
  lemma {:induction false} ShortTypeIcons()
    ensures IconFor("application/pdf") == PdfIcon
    ensures IconFor("text/plain") == GenericIcon
    ensures IconFor("application/vnd.ms-excel") == SheetIcon
  {
    var pdf := "application/pdf";
    assert OccursAt(pdf, "pdf", 12);

    var txt := "text/plain";
    AbsentCharacter(txt, "pdf", 'd');
    AbsentCharacter(txt, "word", 'w');
    AbsentCharacter(txt, "sheet", 'h');
    AbsentCharacter(txt, "excel", 'c');

    var xls := "application/vnd.ms-excel";
    AbsentCharacter(xls, "pdf", 'f');
    AbsentCharacter(xls, "word", 'w');
    assert OccursAt(xls, "excel", 19);
  }

  /** Every size is displayed in exactly one unit, and a larger size never
      in a smaller unit. */
  lemma UnitOrder(a: int, b: int)
    requires a <= b
    ensures UnitFor(a) == MB ==> UnitFor(b) == MB
    ensures UnitFor(b) == B ==> UnitFor(a) == B
  {
  }
}

=== FILE: wrappers.dfy ===
/** Failure-carrying datatypes shared by the whole model.

 - Option<T>: a value that may be absent (TypeScript `T | undefined` / `T | null`).
 - Result<T>: the outcome of one backend call, as seen by the client after the
   call has settled: either the decoded payload or a failure reason.
 - Envelope<T>: the uniform `{ success, data, message }` body every backend
   response carries.
 */
module Wrappers {

  datatype Option<+T> = None | Some(value: T) {

    /** The carried value, or `default` when absent (TypeScript `x ?? default`). */
    function GetOr(default: T): T {
      match this
      case Some(v) => v
      case None => default
    }
  }

  /** A settled backend call: `Ok` with its payload, or `Err` with the reason
      the client reports (for a transport failure, the server's message or the
      exception's message). */
  datatype Result<+T> = Ok(payload: T) | Err(msg: string)

  /** The response body of every backend endpoint. `message` is the text field
      the caller falls back on when `success` is false. */
  datatype Envelope<+T> = Envelope(success: bool, data: T, message: string)

  /** JavaScript truthiness of a string used as `a || b`: the empty string is
      falsy, every other string is returned as is. */
  function OrElse(a: string, b: string): (r: string)
    ensures a != [] ==> r == a
    ensures a == [] ==> r == b
  {
    if a != [] then a else b
  }

  /** Folds an envelope that arrived over a working transport into a Result:
      `success == false` becomes a failure whose reason is the envelope's
      message, or `fallback` when that message is empty. */
  function Settle<T>(transport: Result<Envelope<T>>, fallback: string): (r: Result<T>)
    ensures r.Ok? <==> transport.Ok? && transport.payload.success
    ensures r.Ok? ==> r.payload == transport.payload.data
    ensures transport.Err? ==> r == Err(transport.msg)
    ensures transport.Ok? && !transport.payload.success ==>
              r == Err(OrElse(transport.payload.message, fallback))
  {
    match transport
    case Err(m) => Err(m)
    case Ok(env) =>
      if env.success then Ok(env.data) else Err(OrElse(env.message, fallback))
  }
}
